=== FILE: README.md ===
# Random Bayesian-network dataset generator, modelled in Dafny

This project models `RandomStructureGenerator`, the core of a generator of synthetic
datasets. The generator:

1. draws a random Bayesian-network structure. Nodes `n1 .. nN` get outcome labels
   `s0 .. s(k-1)`. A random permutation `eo` of the nodes, the elimination order,
   fixes where each node may take its parents from: the node at position `i` takes
   distinct parents from positions before `i`.
2. fills one conditional probability table (CPT) per node. The table has one row per
   configuration of the parents' outcomes. Each row holds gamma draws divided by their
   sum, a symmetric Dirichlet sample. The 2-D table is flattened row-major.
3. writes an ARFF file. Its header lists one `@attribute` line per node in `eo` order.
   The data section has one line per data point. Each line is sampled ancestrally:
   nodes are visited in `eo` order, and each picks an outcome by inverse-CDF selection
   on a uniform draw, in the CPT row that its already-sampled parents select.

Every random number the generator consumes is an explicit input:

- `Structure.StructureDraws` holds the outcome counts, the permutation, the parent
  counts and the parent positions.
- `gammas` holds one draw per CPT cell.
- `uniforms` holds one draw per data cell.

Each input is constrained to the range its random call documents, so every stage is a
deterministic function. Real numbers stand in for doubles.

Modules, one per file:

| file | module | what it holds |
|---|---|---|
| results.dfy | Results | `Result`/`Option`; the single error, a setting the source rejects by throwing |
| seqs.dfy | Seqs | sums, running totals, products, `IndexOf`, `Join`/`Split` |
| decimal.dfy | Decimal | decimal rendering of naturals and its inverse |
| network.dfy | BayesNet | nodes, networks, names and labels, the well-formedness invariant, acyclicity |
| structure.dfy | Structure | structure synthesis from the draws |
| mixedradix.dfy | MixedRadix | numbering of parent configurations (CPT rows) |
| cpts.dfy | Cpts | normalisation, flattening, CPTs for all nodes |
| sampling.dfy | Sampling | the inverse-CDF loop, ancestral sampling of a row, the evidence map |
| arff.dfy | Arff | the file's lines, and parsers that read them back |
| generator.dfy | Generator | the whole run, structure to file |
| summary.dfy | Summary | the order in which the structure summary lists the nodes |

### Source behaviour the model follows

- **Errors.** A setting is rejected only where the code throws:
  - a negative `nVariables`, from the node array `new BayesNode[nVariables]`
    (src/generator/RandomStructureGenerator.java:65), before any random call;
  - `nVariables == 0`, from `nextPermutation(0, 0)`;
  - `maxNValuesPerNode < 2`, from `nextInt(2, maxV)`;
  - `maxNParents < 0`, only when there is a second node, so that `nextInt(0, min(i, maxP))` runs;
  - `alpha <= 0`, from `nextGamma`.

  A negative `nDataPoints` is not rejected: the data loop simply writes no rows
  (`Generator.RowsToWrite`).
- **No clamping.** The inverse-CDF loop does not clamp `rand` to the row's total. It
  needs `rand <= total`, which holds because the draw lies in `[0, 1)` and the row sums
  to 1.
- **Determinism per seed does not hold.** The permutation `eo` comes from a
  `RandomDataGenerator` built without the seed
  (src/generator/RandomStructureGenerator.java:62, 74). A fixed seed therefore does not
  fix the network. In the model the permutation is an input like every other draw.
- **Evidence.** The evidence map holds outcome labels keyed by node, as the source's
  `HashMap<BayesNode, String>` does. A parent's outcome index is recovered by looking its
  label up in the parent's outcome list.

## Model

| member | source | states |
|---|---|---|
| Structure.GenerateStructure | src/generator/RandomStructureGenerator.java:61-91 | Fails exactly when the source would throw: a negative node-array size or an argument a random call rejects. Otherwise the network satisfies the well-formedness invariant: `eo` is a permutation of the nodes and every parent sits earlier in `eo`. There are `nVariables` nodes with the drawn outcome counts, each at most `maxNValuesPerNode`. The node at `eo[0]` has no parents. The node at position `i` has exactly its drawn count of parents, at most `min(i, maxNParents)`, and parent `k` is the node at drawn position `picks[i][k]`. |
| Structure.AssignParents | src/generator/RandomStructureGenerator.java:76-91 | From position `i` on, a node receives its drawn parents only if it drew at least one, and is otherwise left alone. Nodes at earlier positions are untouched, and no name or outcome list changes. |
| Structure.AsDrawnParentsDistinct | src/generator/RandomStructureGenerator.java:82-88 | A node's parents are pairwise distinct and are nodes of the network, because the drawn positions are distinct and below `i`. |
| Structure.AsDrawnParentsPrecede | src/generator/RandomStructureGenerator.java:76-89 | Every parent of the node at position `i` is the node at some position `k < i`. |
| BayesNet.NoCycle | src/generator/RandomStructureGenerator.java:76-89 | No directed path of a well-formed network returns to its start: the graph is acyclic, with `eo` as the witness. |
| BayesNet.PathForward | src/generator/RandomStructureGenerator.java:76-89 | Along any directed path, the `eo` position strictly increases. |
| BayesNet.PermutationCovers | src/generator/RandomStructureGenerator.java:74 | A permutation of length `n` with distinct entries below `n` contains every node index. |
| BayesNet.LabelsDistinct | src/generator/RandomStructureGenerator.java:69-71 | The labels `s0 .. s(k-1)` of a node are pairwise distinct. |
| BayesNet.LabelIndex | src/generator/RandomStructureGenerator.java:69-71 | Looking label `sj` up in a node's outcome list gives back index `j`. |
| BayesNet.NodeNameInjective | src/generator/RandomStructureGenerator.java:67 | Different nodes get different names `n(i+1)`. |
| Arff.NoCommaInLabels | src/generator/RandomStructureGenerator.java:70 | No outcome label contains a comma. |
| Decimal.ParseNatToString | src/generator/RandomStructureGenerator.java:67-70 | Reading the decimal rendering of a number gives the number back, so `"s" + j` and `"n" + (i + 1)` are injective. |
| MixedRadix.RowIndex | src/generator/RandomStructureGenerator.java:144-152 | A parent configuration is numbered below the product of the parents' outcome counts, which is the row count. |
| MixedRadix.RowConfigOfIndex | src/generator/RandomStructureGenerator.java:144-152 | Numbering a configuration and decoding the number gives the configuration back. |
| MixedRadix.RowIndexOfConfig | src/generator/RandomStructureGenerator.java:144-152 | Every row below the row count is the number of the configuration it decodes to, so the numbering is a bijection onto the rows. |
| Cpts.Normalize | src/generator/RandomStructureGenerator.java:159-166 | For strictly positive draws, the normalised row has the same length, entries in `[0, 1]` and sum 1. Each entry times the draws' sum is its draw. |
| Cpts.FlattenAt | src/generator/RandomStructureGenerator.java:168-175 | Entry `(row, s)` of the table sits at index `V * row + s` of the flat array. |
| Cpts.Flatten | src/generator/RandomStructureGenerator.java:168 | The flat array has length `rows * V`. |
| Cpts.UnflattenFlatten | src/generator/RandomStructureGenerator.java:168-175 | Cutting the flat array into rows of width `V` gives back the table. |
| Cpts.FlattenUnflatten | src/generator/RandomStructureGenerator.java:168-175 | Flattening the cut rows gives back the flat array, so flattening is a bijection. |
| Cpts.NodeCpt | src/generator/RandomStructureGenerator.java:140-178 | A node's CPT has row-count × V entries, and every row is a distribution. Entry `(row, s)` times the sum of that row's draws is draw `(row, s)`. |
| Cpts.GenerateCpts | src/generator/RandomStructureGenerator.java:136-182 | Fails exactly when `alpha <= 0`. Otherwise every node, in creation order, gets such a CPT from its own draws. |
| Sampling.SelectOutcome | src/generator/RandomStructureGenerator.java:218-225 | When `rand` is at most the row's total, the loop stops with `chosen < length`. The prefix sum up to `chosen` reaches `rand` and every earlier prefix sum is below it, so `chosen` is the first index to reach `rand`. |
| Sampling.FirstReaching | src/generator/RandomStructureGenerator.java:219-225 | The reference definition of the selection: the least index whose running total reaches `rand`. |
| Sampling.ParentsAlreadySampled | src/generator/RandomStructureGenerator.java:215-217 | When the node at position `j` is visited, every parent already has a label in the evidence. Looking those labels up yields exactly the parents' sampled outcome indices. |
| Sampling.ExtendEvidence | src/generator/RandomStructureGenerator.java:226-227 | Recording the chosen outcome's label for the visited node keeps the evidence in step with the sampled columns. |
| Sampling.SampleFrom | src/generator/RandomStructureGenerator.java:215-232 | The row loop from position `|acc|` on, given the evidence of the columns already sampled: the result has `|eo|` columns, keeps the sampled prefix `acc` unchanged, and every column satisfies the inverse-CDF sampling equation for its own draw and its parents' columns. |
| Sampling.SampleRow | src/generator/RandomStructureGenerator.java:212-232 | Starting from empty evidence, the row has one outcome per node in `eo` order. Each column is the inverse-CDF choice of its own draw in the CPT row selected by its parents' columns. |
| Sampling.AncestralSampleUnique | src/generator/RandomStructureGenerator.java:215-232 | Two rows that both satisfy those sampling equations for the same draws are equal. |
| Sampling.StaleEvidenceHarmless | src/generator/RandomStructureGenerator.java:212-234 | Whatever the evidence map holds when a row starts, the sampled row is the one sampled from empty evidence: every node is recorded before any child reads it. So the `evidence.clear()` between rows changes no row, and a row depends on its own draws only. |
| Sampling.SampleRows | src/generator/RandomStructureGenerator.java:213-235 | One row per data point, each an ancestral sample of its own draws. |
| Seqs.SplitJoin | src/generator/RandomStructureGenerator.java:228-231 | Splitting comma-joined tokens that contain no comma gives back the tokens. |
| Seqs.JoinSplit | src/generator/RandomStructureGenerator.java:228-231 | Joining the pieces of a split gives back the string. |
| Arff.AttributeLine | src/generator/RandomStructureGenerator.java:199-207 | The printed line is an attribute line. When the name has no space and the outcomes have no comma, the line reads back as the node's name and its outcomes in creation order. |
| Arff.HeaderLines | src/generator/RandomStructureGenerator.java:196-211 | The header has `|eo| + 5` lines, line `|eo| + 3` is `@data`, and line `2 + j` reads back as the name and outcomes of the node at position `j` of `eo`. |
| Arff.AttributeLineRoundTrip | src/generator/RandomStructureGenerator.java:199-207 | A node's `@attribute` line reads back as the node's name and its outcomes in creation order. |
| Arff.HeaderLayout | src/generator/RandomStructureGenerator.java:196-211 | The file has `|eo| + 5 + rows` lines, and line `|eo| + 3` is `@data`. A line is an attribute line exactly when it is one of lines `2 .. |eo| + 1`, and line `2 + j` declares the node at position `j` of `eo`. |
| Arff.OneAttributePerNode | src/generator/RandomStructureGenerator.java:199-207 | Each node is declared by exactly one line, the one at its `eo` position. |
| Arff.DataLine | src/generator/RandomStructureGenerator.java:226-231 | The line splits back into exactly the row's outcome labels, one per node in `eo` order. It reads back as the row and is never taken for an attribute line. |
| Arff.DataLineNotAttribute | src/generator/RandomStructureGenerator.java:226-231 | A data line starts with an outcome label, so it is never taken for an attribute line. |
| Arff.DataLineRoundTrip | src/generator/RandomStructureGenerator.java:226-233 | A data line splits into one token per node in `eo` order. Each token is an outcome of its column's node and reads back as the sampled index. |
| Arff.ArffLines | src/generator/RandomStructureGenerator.java:196-235 | The whole file has `|eo| + 5 + rows` lines. Line `2 + j` declares the node at `eo` position `j`, and data line `i` reads back as row `i`. |
| Generator.GenerateDataset | src/generator/RandomStructureGenerator.java:116-134 | The run fails exactly when the structure settings or `alpha` are rejected. Otherwise it gives a well-formed network with valid CPTs and a file with `nVariables + 5 + max(nDataPoints, 0)` lines, which are the header with one attribute line per node in `eo` order followed by one data line per data point. Each data line reads back as an ancestral sample of that data point's draws. |
| Generator.WriteDataset | src/generator/RandomStructureGenerator.java:196-235 | The written file has the header and data layout above for the given network, CPTs and draws. |
| Generator.SmallRun | src/generator/RandomStructureGenerator.java:116-235 | Three nodes, at most two parents and two outcomes, five data points, any positive `alpha`: the run succeeds with 13 lines. Three attribute lines each declare `{s0,s1}`, and five data lines each hold three tokens, each `s0` or `s1`. |
| Summary.ListingAsWritten | src/generator/RandomStructureGenerator.java:101-102 | The summary as written lists every node exactly once, in the order `eo` composed with itself. |
| Summary.ListingAsWrittenMisorders | src/generator/RandomStructureGenerator.java:101-102 | On a three-node network with `eo = [1, 2, 0]`, the listing as written is `n3, n1, n2`. This puts `n3` before its parent `n2`, while the `eo` listing keeps parents first. |
| Summary.Listing | src/generator/RandomStructureGenerator.java:101-102 | The listing in elimination order names every node once, each after all of its parents. |

## Left out

- Generator.GenerateDataset: always builds a fresh structure. The source reuses an existing network when `bn` is already set (lines 117-119), and then redraws only the CPTs and the data. The model also does not cover the two exceptions that lines 128-132 catch. A `FileNotFoundException` from opening the file at line 189 leaves no file, because line 124 and line 187 deleted it first. A `NoSuchAlgorithmException` from the `SecureRandom` lookup at line 192 comes after line 189 has created the file, so it leaves an empty file. In both cases the run returns normally.
- Random number generation itself: `JDKRandomGenerator`, `RandomDataGenerator`, `SecureRandom`. Their results are inputs constrained to the documented ranges: `nextInt(a, b)` in `[a, b]`, `nextPermutation(n, k)` as `k` distinct values below `n`, `nextGamma` positive, `nextDouble` in `[0, 1)`. The rejection rules assumed are: `nextInt` rejects `a > b`, `nextPermutation` rejects `k <= 0` or `k > n`, and `nextGamma` rejects a non-positive shape. The library's own code is not part of this model.
- Floating point: doubles are modelled as reals. Rounding in the normalisation and in the running totals is not modelled, so the case where a rounded row total falls below the uniform draw cannot arise in the model. Gamma draws that underflow to zero are excluded by the positive-draw precondition.
- The CPT row order inside the network library: `BayesNodeUtil.getSubCpt` is not part of this model. Rows are numbered mixed-radix over the parent list, with the first parent most significant; this is a modelling choice.
- Cpts.RowCount: the source multiplies the outcome counts in a 32-bit `int`, which could wrap for very large parent sets. The model uses unbounded naturals.
- File handling and console output: deleting, creating and buffering the file, and the progress messages. The file is modelled as its sequence of lines.
- The text of the structure summary (`toString`): outcome and parent lists are rendered by the network library's `toString`, which is not part of this model. Only the order in which nodes are listed is modelled.
- `main` and its default settings, and the RNG-quality experiment in `TestStrengthRandomNumber`, which compares generators with a chi-square test over floating-point p-values.
- Sampling.SelectOutcome: the source's `assert(chosenValue < probas.length)` is a Java assertion that is off by default. The model proves the bound instead of checking it at run time.

## Findings

| source | as written | input that shows it | evidently intended | confidence | as-written member | corrected member |
|---|---|---|---|---|---|---|
| src/generator/RandomStructureGenerator.java:101-102 | the for-each loop takes the entries of `eo` and indexes `eo` with them again, listing node `eo[eo[k]]` k-th | `eo = [1, 2, 0]` with `n3` a child of `n2`: the summary lists `n3, n1, n2`, a child before its parent, not in elimination order | list node `eo[k]` k-th, i.e. in elimination order, as the loop variable name `eoIndex` and the ARFF header suggest | medium, not executed | Summary.ListingAsWrittenMisorders | Summary.Listing |

=== FILE: arff.dfy ===
/** ARFF serialisation of a sampled dataset, as the sequence of lines printed:
    the relation line, a blank line, one attribute line per node in
    elimination order, a blank line, the data marker, a blank line, then one
    comma-separated line of outcome labels per data row. */
module Arff {
  import opened Seqs
  import opened BayesNet
  import opened Results

  const AttributePrefix: string := "@attribute "

  /** "@attribute <name> {<o0>,<o1>,...}", outcomes in creation order. A
      node whose name has no space and whose outcomes have no comma reads
      back from its line. */
  function AttributeLine(node: Node): (line: string)
    ensures IsAttributeLine(line)
    ensures Printable(node) ==> ParseAttributeLine(line) == Some(Attribute(node.name, node.outcomes))
  {
    AttributeLineParses(node);
    var line := AttributePrefix + Declaration(node.name, node.outcomes);
    assert line[..|AttributePrefix|] == AttributePrefix;
    line
  }

  lemma AttributeLineParses(node: Node)
    ensures Printable(node) ==>
      ParseAttributeLine(AttributePrefix + Declaration(node.name, node.outcomes)) == Some(Attribute(node.name, node.outcomes))
  {
    if Printable(node) {
      ParseAttributeOf(node.name, node.outcomes);
    }
  }

  /** The name and the outcomes can be told apart again in the printed line. */
  predicate Printable(node: Node)
  {
    && ' ' !in node.name
    && |node.outcomes| >= 1
    && forall k :: 0 <= k < |node.outcomes| ==> ',' !in node.outcomes[k]
  }

  function Declaration(name: string, outs: seq<string>): string
  {
    name + " " + Domain(outs)
  }

  function Domain(outs: seq<string>): string
  {
    "{" + Join(outs, ',') + "}"
  }

  /** The relation, the attribute lines in eo order, and the data marker:
      line 2 + j declares the node at eo position j. */
  function HeaderLines(relation: string, net: Network): (lines: seq<string>)
    requires WellFormed(net)
    ensures |lines| == |net.eo| + 5
    ensures lines[|net.eo| + 3] == "@data"
    ensures forall j :: 0 <= j < |net.eo| ==>
      ParseAttributeLine(lines[2 + j]) == Some(Attribute(NodeName(net.eo[j]), net.nodes[net.eo[j]].outcomes))
  {
    var attrs := seq(|net.eo|, j requires 0 <= j < |net.eo| => AttributeLine(net.nodes[net.eo[j]]));
    AttributesParse(net, attrs);
    ["@relation " + relation, ""] + attrs + ["", "@data", ""]
  }

  lemma AttributesParse(net: Network, attrs: seq<string>)
    requires WellFormed(net)
    requires |attrs| == |net.eo| && forall j :: 0 <= j < |net.eo| ==> attrs[j] == AttributeLine(net.nodes[net.eo[j]])
    ensures forall j :: 0 <= j < |net.eo| ==>
      ParseAttributeLine(attrs[j]) == Some(Attribute(NodeName(net.eo[j]), net.nodes[net.eo[j]].outcomes))
  {
    NodesPrintable(net);
  }

  /** The outcome labels of a row, column j being the node at eo position j. */
  function RowTokens(net: Network, row: seq<nat>): (toks: seq<string>)
    requires WellFormed(net) && |row| == |net.eo| && ValidColumns(net, row)
    ensures |toks| == |net.eo|
  {
    seq(|row|, j requires 0 <= j < |row| =>
      assert row[j] < OutcomeCount(net, net.eo[j]);
      net.nodes[net.eo[j]].outcomes[row[j]])
  }

  /** The row's labels joined by commas. It splits back into one token per
      column, reads back as the row, and is never taken for an attribute. */
  function DataLine(net: Network, row: seq<nat>): (line: string)
    requires WellFormed(net) && |row| == |net.eo| && ValidColumns(net, row)
    ensures Split(line, ',') == RowTokens(net, row)
    ensures ParseDataLine(net, line) == Some(row)
    ensures !IsAttributeLine(line)
  {
    DataLineRoundTrip(net, row);
    DataLineNotAttribute(net, row);
    Join(RowTokens(net, row), ',')
  }

  predicate RowsFit(net: Network, rows: seq<seq<nat>>)
    requires WellFormed(net)
  {
    forall i :: 0 <= i < |rows| ==> |rows[i]| == |net.eo| && ValidColumns(net, rows[i])
  }

  /** The whole file, line by line: the header, then one data line per row,
      data line i reading back as row i. */
  function ArffLines(relation: string, net: Network, rows: seq<seq<nat>>): (lines: seq<string>)
    requires WellFormed(net) && RowsFit(net, rows)
    ensures |lines| == |net.eo| + 5 + |rows|
    ensures forall j :: 0 <= j < |net.eo| ==>
      ParseAttributeLine(lines[2 + j]) == Some(Attribute(NodeName(net.eo[j]), net.nodes[net.eo[j]].outcomes))
    ensures forall i :: 0 <= i < |rows| ==> ParseDataLine(net, lines[|net.eo| + 5 + i]) == Some(rows[i])
  {
    HeaderLines(relation, net) + seq(|rows|, i requires 0 <= i < |rows| => DataLine(net, rows[i]))
  }

  // ---------------------------------------------------------------------
  // Reading the file back

  datatype Attribute = Attribute(name: string, outcomes: seq<string>)

  predicate IsAttributeLine(line: string)
  {
    |line| >= |AttributePrefix| && line[..|AttributePrefix|] == AttributePrefix
  }

  /** Reads "@attribute <name> {<o0>,...}" back into its name and outcomes. */
  function ParseAttributeLine(line: string): Option<Attribute>
  {
    if IsAttributeLine(line) then ParseDeclaration(line[|AttributePrefix|..]) else None
  }

  /** "<name> {<o0>,...}": the name runs up to the first space. */
  function ParseDeclaration(rest: string): Option<Attribute>
  {
    if ' ' in rest then
      var i := IndexOf(rest, ' ');
      ParseDomain(rest[..i], rest[i + 1..])
    else None
  }

  /** "{<o0>,...}": the outcomes between the braces, split at the commas. */
  function ParseDomain(name: string, body: string): Option<Attribute>
  {
    if |body| >= 2 && body[0] == '{' && body[|body| - 1] == '}' then
      Some(Attribute(name, Split(body[1..|body| - 1], ',')))
    else None
  }

  /** Reads a data line back into outcome indices, column by column. */
  function ParseDataLine(net: Network, line: string): Option<seq<nat>>
    requires WellFormed(net)
  {
    var toks := Split(line, ',');
    if |toks| == |net.eo| && forall j :: 0 <= j < |toks| ==> toks[j] in net.nodes[net.eo[j]].outcomes then
      Some(seq(|toks|, j requires 0 <= j < |toks| => IndexOf(net.nodes[net.eo[j]].outcomes, toks[j])))
    else None
  }

  /** An attribute line reads back as the name and outcomes it was printed
      from, when the name has no space and no outcome has a comma. */
  lemma ParseAttributeOf(name: string, outs: seq<string>)
    requires ' ' !in name && |outs| >= 1
    requires forall k :: 0 <= k < |outs| ==> ',' !in outs[k]
    ensures ParseAttributeLine(AttributePrefix + Declaration(name, outs)) == Some(Attribute(name, outs))
  {
    var rest := Declaration(name, outs);
    var line := AttributePrefix + rest;
    assert line[..|AttributePrefix|] == AttributePrefix;
    assert line[|AttributePrefix|..] == rest;
    SpaceAfterName(name, Domain(outs));
    ParseDomainOf(name, outs);
  }

  lemma ParseDomainOf(name: string, outs: seq<string>)
    requires |outs| >= 1
    requires forall k :: 0 <= k < |outs| ==> ',' !in outs[k]
    ensures ParseDomain(name, Domain(outs)) == Some(Attribute(name, outs))
  {
    var body := Domain(outs);
    assert body[1..|body| - 1] == Join(outs, ',');
    SplitJoin(outs, ',');
  }

  lemma SpaceAfterName(name: string, body: string)
    requires ' ' !in name
    ensures ' ' in name + " " + body
    ensures IndexOf(name + " " + body, ' ') == |name|
    ensures (name + " " + body)[..|name|] == name
    ensures (name + " " + body)[|name| + 1..] == body
  {
    var rest := name + " " + body;
    assert rest[|name|] == ' ';
    assert forall k :: 0 <= k < |name| ==> rest[k] == name[k];
  }

  /** The attribute line of a node of a well-formed network reads back as that
      node's name and its outcomes in creation order. */
  lemma AttributeLineRoundTrip(net: Network, m: nat)
    requires WellFormed(net) && m < |net.nodes|
    ensures ParseAttributeLine(AttributeLine(net.nodes[m])) == Some(Attribute(NodeName(m), net.nodes[m].outcomes))
  {
    NodePrintable(net, m);
  }

  lemma NodePrintable(net: Network, m: nat)
    requires WellFormed(net) && m < |net.nodes|
    ensures Printable(net.nodes[m])
  {
    var node := net.nodes[m];
    if ' ' in node.name {
      NameChars(m, ' ');
    }
    NoCommaInLabels(net, m);
  }

  lemma NodesPrintable(net: Network)
    requires WellFormed(net)
    ensures forall m :: 0 <= m < |net.nodes| ==> Printable(net.nodes[m])
  {
    forall m | 0 <= m < |net.nodes|
      ensures Printable(net.nodes[m])
    {
      NodePrintable(net, m);
    }
  }

  lemma NoCommaInLabels(net: Network, m: nat)
    requires WellFormed(net) && m < |net.nodes|
    ensures forall k :: 0 <= k < |net.nodes[m].outcomes| ==> ',' !in net.nodes[m].outcomes[k]
  {
    var outs := net.nodes[m].outcomes;
    forall k | 0 <= k < |outs|
      ensures ',' !in outs[k]
    {
      assert outs[k] == OutcomeLabel(k);
      if ',' in outs[k] {
        LabelChars(k, ',');
      }
    }
  }

  /** A data line reads back as the row it was printed from: it has one token
      per node, in eo order, and each token is an outcome of its column's node. */
  lemma DataLineRoundTrip(net: Network, row: seq<nat>)
    requires WellFormed(net) && |row| == |net.eo| && ValidColumns(net, row)
    ensures Split(Join(RowTokens(net, row), ','), ',') == RowTokens(net, row)
    ensures ParseDataLine(net, Join(RowTokens(net, row), ',')) == Some(row)
  {
    var toks := RowTokens(net, row);
    forall j | 0 <= j < |toks|
      ensures ',' !in toks[j]
    {
      NoCommaInLabels(net, net.eo[j]);
    }
    SplitJoin(toks, ',');
    forall j | 0 <= j < |toks|
      ensures toks[j] in net.nodes[net.eo[j]].outcomes
      ensures IndexOf(net.nodes[net.eo[j]].outcomes, toks[j]) == row[j]
    {
      LabelIndex(OutcomeCount(net, net.eo[j]), row[j]);
    }
    var back := seq(|toks|, j requires 0 <= j < |toks| => IndexOf(net.nodes[net.eo[j]].outcomes, toks[j]));
    assert back == row;
  }

  /** The attribute lines are exactly lines 2 .. |eo| + 1; line 2 + j declares
      the node at eo position j, and no other line declares an attribute. */
  lemma HeaderLayout(relation: string, net: Network, rows: seq<seq<nat>>)
    requires WellFormed(net) && RowsFit(net, rows)
    ensures |ArffLines(relation, net, rows)| == |net.eo| + 5 + |rows|
    ensures ArffLines(relation, net, rows)[|net.eo| + 3] == "@data"
    ensures forall i :: 0 <= i < |ArffLines(relation, net, rows)| ==>
      (IsAttributeLine(ArffLines(relation, net, rows)[i]) <==> 2 <= i < |net.eo| + 2)
    ensures forall j :: 0 <= j < |net.eo| ==>
      ParseAttributeLine(ArffLines(relation, net, rows)[2 + j]) == Some(Attribute(NodeName(net.eo[j]), net.nodes[net.eo[j]].outcomes))
  {
    AttributeLinesExactly(relation, net, rows);
  }

  lemma AttributeLinesExactly(relation: string, net: Network, rows: seq<seq<nat>>)
    requires WellFormed(net) && RowsFit(net, rows)
    ensures |ArffLines(relation, net, rows)| == |net.eo| + 5 + |rows|
    ensures ArffLines(relation, net, rows)[|net.eo| + 3] == "@data"
    ensures forall i :: 0 <= i < |ArffLines(relation, net, rows)| ==>
      (IsAttributeLine(ArffLines(relation, net, rows)[i]) <==> 2 <= i < |net.eo| + 2)
  {
    var lines := ArffLines(relation, net, rows);
    var n := |net.eo|;
    assert lines[n + 3] == HeaderLines(relation, net)[n + 3];
    forall i | 0 <= i < |lines|
      ensures IsAttributeLine(lines[i]) <==> 2 <= i < n + 2
    {
      LineKind(relation, net, rows, i);
    }
  }

  lemma LineKind(relation: string, net: Network, rows: seq<seq<nat>>, i: nat)
    requires WellFormed(net) && RowsFit(net, rows) && i < |net.eo| + 5 + |rows|
    ensures i < |ArffLines(relation, net, rows)|
    ensures IsAttributeLine(ArffLines(relation, net, rows)[i]) <==> 2 <= i < |net.eo| + 2
  {
    var lines := ArffLines(relation, net, rows);
    var n := |net.eo|;
    if i < n + 5 {
      assert lines[i] == HeaderLines(relation, net)[i];
      HeaderLineKind(relation, net, i);
    } else {
      assert lines[i] == DataLine(net, rows[i - n - 5]);
    }
  }

  /** Among the header lines, the attribute lines are lines 2 .. |eo| + 1. */
  lemma HeaderLineKind(relation: string, net: Network, i: nat)
    requires WellFormed(net) && i < |net.eo| + 5
    ensures IsAttributeLine(HeaderLines(relation, net)[i]) <==> 2 <= i < |net.eo| + 2
  {
    var header := HeaderLines(relation, net);
    if i == 0 {
      RelationLineKind(relation, header[0]);
    } else if 2 <= i < |net.eo| + 2 {
      var front := ["@relation " + relation, ""];
      var attrs := seq(|net.eo|, j requires 0 <= j < |net.eo| => AttributeLine(net.nodes[net.eo[j]]));
      assert header == (front + attrs) + ["", "@data", ""];
      assert header[i] == (front + attrs)[i] == attrs[i - 2];
    } else {
      assert header[i] in ["", "@data"];
      MarkerLineKind(header[i]);
    }
  }

  lemma RelationLineKind(relation: string, line: string)
    requires line == "@relation " + relation
    ensures !IsAttributeLine(line)
  {
    assert line[1] == 'r' != AttributePrefix[1];
  }

  lemma MarkerLineKind(line: string)
    requires line in ["", "@data"]
    ensures !IsAttributeLine(line)
  {
  }

  /** A data line starts with an outcome label, so it is no attribute line. */
  lemma DataLineNotAttribute(net: Network, row: seq<nat>)
    requires WellFormed(net) && |row| == |net.eo| && ValidColumns(net, row)
    ensures !IsAttributeLine(Join(RowTokens(net, row), ','))
  {
    var toks := RowTokens(net, row);
    var line := Join(RowTokens(net, row), ',');
    JoinFirst(toks, ',');
    assert toks[0] == OutcomeLabel(row[0]);
    assert line[0] == line[..|toks[0]|][0] == 's';
  }

  /** The line declares an attribute named after node m. */
  predicate Declares(line: string, m: nat)
  {
    ParseAttributeLine(line).Some? && ParseAttributeLine(line).value.name == NodeName(m)
  }

  /** Each node is declared by exactly one line, the one at its eo position. */
  lemma OneAttributePerNode(relation: string, net: Network, rows: seq<seq<nat>>, m: nat)
    requires WellFormed(net) && RowsFit(net, rows) && m < |net.nodes|
    ensures Declares(ArffLines(relation, net, rows)[2 + Pos(net, m)], m)
    ensures forall i :: 0 <= i < |ArffLines(relation, net, rows)| && Declares(ArffLines(relation, net, rows)[i], m) ==>
      i == 2 + Pos(net, m)
  {
    var lines := ArffLines(relation, net, rows);
    HeaderLayout(relation, net, rows);
    var j := Pos(net, m);
    forall i | 0 <= i < |lines| && Declares(lines[i], m)
      ensures i == 2 + j
    {
      assert IsAttributeLine(lines[i]);
      NodeNameInjective(net.eo[i - 2], m);
      IndexOfDistinct(net.eo, i - 2);
      IndexOfDistinct(net.eo, j);
    }
  }
}

=== FILE: cpts.dfy ===
/** CPT shaping: one row per parent configuration, each row the normalised
    gamma draws for the node's outcomes (a symmetric Dirichlet sample),
    flattened row-major so that entry (row, s) sits at index V * row + s. */
module Cpts {
  import opened Seqs
  import opened BayesNet
  import opened MixedRadix
  import opened Results

  /** Number of CPT rows of node m: the product of its parents' outcome counts. */
  function RowCount(net: Network, m: nat): nat
    requires WellFormed(net) && m < |net.nodes|
  {
    Product(ParentCounts(net, m))
  }

  /** p is g rescaled by g's sum: each entry times the sum of g is the entry of g. */
  predicate ProportionalTo(p: seq<real>, g: seq<real>)
  {
    |p| == |g| && forall s :: 0 <= s < |p| ==> p[s] * Sum(g) == g[s]
  }

  /** Divides each draw by the sum of the draws. */
  function Normalize(g: seq<real>): (p: seq<real>)
    requires |g| > 0 && AllPositive(g)
    ensures |p| == |g|
    ensures Sum(p) == 1.0
    ensures forall s :: 0 <= s < |p| ==> 0.0 <= p[s] <= 1.0
    ensures ProportionalTo(p, g)
  {
    var total := Sum(g);
    SumPositive(g);
    var p := seq(|g|, s requires 0 <= s < |g| => g[s] / total);
    NormalizeFacts(g, total, p);
    p
  }

  lemma NormalizeFacts(g: seq<real>, total: real, p: seq<real>)
    requires AllPositive(g) && total == Sum(g) && total > 0.0
    requires |p| == |g| && forall s :: 0 <= s < |g| ==> p[s] == g[s] / total
    ensures Sum(p) == 1.0
    ensures forall s :: 0 <= s < |p| ==> 0.0 <= p[s] <= 1.0
    ensures ProportionalTo(p, g)
  {
    SumScaled(g, total, p);
    SelfQuotient(total);
    NormalizedEntries(g, total, p);
    assert Sum(p) == total / total;
  }

  lemma NormalizedEntries(g: seq<real>, total: real, p: seq<real>)
    requires AllPositive(g) && total == Sum(g) && total > 0.0
    requires |p| == |g| && forall s :: 0 <= s < |g| ==> p[s] == g[s] / total
    ensures forall s :: 0 <= s < |p| ==> 0.0 <= p[s] <= 1.0
    ensures ProportionalTo(p, g)
  {
    EntriesAtMostSum(g);
    forall s | 0 <= s < |p|
      ensures 0.0 <= p[s] <= 1.0 && p[s] * Sum(g) == g[s]
    {
      Quotient(g[s], total);
    }
  }

  lemma SelfQuotient(t: real)
    requires t > 0.0
    ensures t / t == 1.0
  {
  }

  lemma Quotient(x: real, t: real)
    requires 0.0 < x <= t
    ensures 0.0 <= x / t <= 1.0 && (x / t) * t == x
  {
  }

  lemma EntriesAtMostSum(g: seq<real>)
    requires AllPositive(g)
    ensures forall s :: 0 <= s < |g| ==> g[s] <= Sum(g)
  {
    forall s | 0 <= s < |g|
      ensures g[s] <= Sum(g)
    {
      EntryAtMostSum(g, s);
    }
  }

  /** Row-major flattening: the rows laid end to end. */
  function Flatten(rows: seq<seq<real>>, w: nat): (flat: seq<real>)
    requires forall r :: 0 <= r < |rows| ==> |rows[r]| == w
    ensures |flat| == |rows| * w
  {
    if |rows| == 0 then []
    else
      var n := |rows|;
      LengthStep(n, w);
      Flatten(rows[..n - 1], w) + rows[n - 1]
  }

  lemma LengthStep(n: nat, w: nat)
    requires n > 0
    ensures (n - 1) * w + w == n * w
  {
  }

  /** Entry (r, s) of the table sits at index w * r + s of the flattening. */
  lemma {:induction false} FlattenAt(rows: seq<seq<real>>, w: nat, r: nat, s: nat)
    requires forall k :: 0 <= k < |rows| ==> |rows[k]| == w
    requires r < |rows| && s < w
    ensures w * r + s < |Flatten(rows, w)|
    ensures Flatten(rows, w)[w * r + s] == rows[r][s]
    decreases |rows|
  {
    var n := |rows|;
    var front := Flatten(rows[..n - 1], w);
    assert Flatten(rows, w) == front + rows[n - 1];
    RowFits(n, w, r);
    if r < n - 1 {
      FlattenAt(rows[..n - 1], w, r, s);
    } else {
      assert |front| == (n - 1) * w;
      assert w * r == (n - 1) * w;
    }
  }

  /** Row `row` of a flat table of width w. */
  function CptRow(flat: seq<real>, w: nat, row: nat): (r: seq<real>)
    requires w * row + w <= |flat|
    ensures |r| == w
  {
    flat[w * row .. w * row + w]
  }

  lemma RowFits(n: nat, w: nat, row: nat)
    requires row < n
    ensures w * row + w <= n * w
  {
    MulMono(row + 1, n, w);
  }

  lemma IndexSplit(i: nat, w: nat, n: nat)
    requires w > 0 && i < n * w
    ensures i == w * (i / w) + i % w && i / w < n && i % w < w
  {
    QuotientBound(i, n, w);
  }

  /** Reading row r back out of the flattened table gives row r. */
  lemma CptRowFlatten(rows: seq<seq<real>>, w: nat, r: nat)
    requires forall k :: 0 <= k < |rows| ==> |rows[k]| == w
    requires r < |rows|
    ensures w * r + w <= |Flatten(rows, w)|
    ensures CptRow(Flatten(rows, w), w, r) == rows[r]
  {
    RowFits(|rows|, w, r);
    var flat := Flatten(rows, w);
    forall s | 0 <= s < w
      ensures CptRow(flat, w, r)[s] == rows[r][s]
    {
      FlattenAt(rows, w, r, s);
    }
  }

  /** Cuts a flat table of width w back into its rows. */
  function Unflatten(flat: seq<real>, w: nat): (rows: seq<seq<real>>)
    requires w > 0 && |flat| % w == 0
    ensures |rows| * w == |flat|
    ensures forall r :: 0 <= r < |rows| ==> |rows[r]| == w
  {
    var n := |flat| / w;
    assert n * w == |flat|;
    seq(n, r requires 0 <= r < n => (RowFits(n, w, r); CptRow(flat, w, r)))
  }

  /** Flattening then cutting returns the rows. */
  lemma UnflattenFlatten(rows: seq<seq<real>>, w: nat)
    requires w > 0
    requires forall k :: 0 <= k < |rows| ==> |rows[k]| == w
    ensures |Flatten(rows, w)| % w == 0
    ensures Unflatten(Flatten(rows, w), w) == rows
  {
    var flat := Flatten(rows, w);
    assert |flat| == |rows| * w;
    DivMod(|rows|, w, 0);
    var back := Unflatten(flat, w);
    assert |back| == |rows|;
    forall r | 0 <= r < |rows|
      ensures back[r] == rows[r]
    {
      CptRowFlatten(rows, w, r);
    }
  }

  /** Cutting then flattening returns the flat table. */
  lemma FlattenUnflatten(flat: seq<real>, w: nat)
    requires w > 0 && |flat| % w == 0
    ensures Flatten(Unflatten(flat, w), w) == flat
  {
    var again := Flatten(Unflatten(flat, w), w);
    forall i | 0 <= i < |flat|
      ensures again[i] == flat[i]
    {
      FlattenUnflattenAt(flat, w, i);
    }
  }

  lemma FlattenUnflattenAt(flat: seq<real>, w: nat, i: nat)
    requires w > 0 && |flat| % w == 0 && i < |flat|
    ensures |Flatten(Unflatten(flat, w), w)| == |flat|
    ensures Flatten(Unflatten(flat, w), w)[i] == flat[i]
  {
    var rows := Unflatten(flat, w);
    IndexSplit(i, w, |rows|);
    var r, s := i / w, i % w;
    FlattenAt(rows, w, r, s);
    RowFits(|rows|, w, r);
    assert rows[r] == CptRow(flat, w, r);
    assert rows[r][s] == flat[w * r + s];
  }

  /** The gamma draws of node m: one row of V positive reals per parent configuration. */
  predicate DrawsFitNode(net: Network, m: nat, draws: seq<seq<real>>)
    requires WellFormed(net) && m < |net.nodes|
  {
    && |draws| == RowCount(net, m)
    && forall row :: 0 <= row < |draws| ==>
         |draws[row]| == OutcomeCount(net, m) && AllPositive(draws[row])
  }

  predicate GammasFit(net: Network, gammas: seq<seq<seq<real>>>)
    requires WellFormed(net)
  {
    |gammas| == |net.nodes| && forall m :: 0 <= m < |net.nodes| ==> DrawsFitNode(net, m, gammas[m])
  }

  /** A flat table of n rows of width v in which every row is a distribution. */
  predicate RowsAreDistributions(cpt: seq<real>, n: nat, v: nat)
  {
    && |cpt| == n * v
    && forall row :: 0 <= row < n ==>
         (RowFits(n, v, row);
          && Sum(CptRow(cpt, v, row)) == 1.0
          && forall s :: 0 <= s < v ==> 0.0 <= CptRow(cpt, v, row)[s] <= 1.0)
  }

  /** Entry (row, s) of the table is draw (row, s) divided by the sum of its row's draws. */
  predicate RowsProportional(cpt: seq<real>, n: nat, v: nat, draws: seq<seq<real>>)
    requires |cpt| == n * v && |draws| == n
  {
    forall row :: 0 <= row < n ==>
      (RowFits(n, v, row);
       ProportionalTo(CptRow(cpt, v, row), draws[row]))
  }

  /** A CPT for node m: RowCount * V entries, every row a distribution. */
  predicate CptOk(net: Network, m: nat, cpt: seq<real>)
    requires WellFormed(net) && m < |net.nodes|
  {
    RowsAreDistributions(cpt, RowCount(net, m), OutcomeCount(net, m))
  }

  predicate CptsOk(net: Network, cpts: seq<seq<real>>)
    requires WellFormed(net)
  {
    |cpts| == |net.nodes| && forall m :: 0 <= m < |net.nodes| ==> CptOk(net, m, cpts[m])
  }

  /** Every CPT entry of node m is its gamma draw divided by the sum of its row's draws. */
  predicate Proportional(net: Network, m: nat, cpt: seq<real>, draws: seq<seq<real>>)
    requires WellFormed(net) && m < |net.nodes|
    requires CptOk(net, m, cpt) && DrawsFitNode(net, m, draws)
  {
    RowsProportional(cpt, RowCount(net, m), OutcomeCount(net, m), draws)
  }

  /** The CPT of node m built from its draws. */
  function NodeCpt(net: Network, m: nat, draws: seq<seq<real>>): (cpt: seq<real>)
    requires WellFormed(net) && m < |net.nodes| && DrawsFitNode(net, m, draws)
    ensures CptOk(net, m, cpt)
    ensures Proportional(net, m, cpt, draws)
  {
    var v := OutcomeCount(net, m);
    var rows := seq(|draws|, row requires 0 <= row < |draws| => Normalize(draws[row]));
    var cpt := Flatten(rows, v);
    NormalizedRows(draws, v, rows, cpt);
    cpt
  }

  lemma NormalizedRows(draws: seq<seq<real>>, v: nat, rows: seq<seq<real>>, cpt: seq<real>)
    requires forall row :: 0 <= row < |draws| ==> |draws[row]| == v && v > 0 && AllPositive(draws[row])
    requires |rows| == |draws|
    requires forall row :: 0 <= row < |draws| ==> rows[row] == Normalize(draws[row])
    requires forall row :: 0 <= row < |rows| ==> |rows[row]| == v
    requires cpt == Flatten(rows, v)
    ensures RowsAreDistributions(cpt, |draws|, v)
    ensures RowsProportional(cpt, |draws|, v, draws)
  {
    var n := |rows|;
    forall row | 0 <= row < n
      ensures v * row + v <= |cpt|
      ensures CptRow(cpt, v, row) == rows[row]
    {
      CptRowFlatten(rows, v, row);
    }
    forall row | 0 <= row < n
      ensures Sum(CptRow(cpt, v, row)) == 1.0
      ensures forall s :: 0 <= s < v ==> 0.0 <= CptRow(cpt, v, row)[s] <= 1.0
      ensures ProportionalTo(CptRow(cpt, v, row), draws[row])
    {
      assert CptRow(cpt, v, row) == Normalize(draws[row]);
    }
  }

  /** Attaches a CPT to every node, in node-creation order; a non-positive
      concentration makes the gamma call fail. */
  function GenerateCpts(net: Network, alpha: real, gammas: seq<seq<seq<real>>>): (r: Result<seq<seq<real>>>)
    requires WellFormed(net)
    requires alpha > 0.0 ==> GammasFit(net, gammas)
    ensures r.Err? <==> alpha <= 0.0
    ensures r.Ok? ==> CptsOk(net, r.value)
    ensures r.Ok? ==> forall m :: 0 <= m < |net.nodes| ==> Proportional(net, m, r.value[m], gammas[m])
  {
    if alpha <= 0.0 then Err(InvalidConfiguration)
    else
      Ok(seq(|net.nodes|, m requires 0 <= m < |net.nodes| => NodeCpt(net, m, gammas[m])))
  }

  /** A node without parents has a single, unconditional row. */
  lemma NoParentsSingleRow(net: Network, m: nat)
    requires WellFormed(net) && m < |net.nodes| && net.nodes[m].parents == []
    ensures RowCount(net, m) == 1
  {
  }
}

=== FILE: decimal.dfy ===
/** Decimal rendering of naturals, as Java's string concatenation
    `"s" + j` and `"n" + (i + 1)` produces it for non-negative ints. */
module Decimal {

  predicate IsDigit(c: char)
  {
    '0' <= c <= '9'
  }

  function DigitChar(d: nat): (c: char)
    requires d < 10
    ensures IsDigit(c)
  {
    "0123456789"[d]
  }

  function DigitValue(c: char): (d: nat)
    ensures IsDigit(c) ==> d < 10
  {
    if IsDigit(c) then (c as int - '0' as int) as nat else 0
  }

  /** Shortest decimal form, most significant digit first. */
  function NatToString(n: nat): (s: string)
    ensures |s| >= 1
    ensures forall k :: 0 <= k < |s| ==> IsDigit(s[k])
  {
    if n < 10 then [DigitChar(n)] else NatToString(n / 10) + [DigitChar(n % 10)]
  }

  /** Reads a string of decimal digits back into its value. */
  function ParseDigits(s: string): nat
  {
    if |s| == 0 then 0 else ParseDigits(s[..|s| - 1]) * 10 + DigitValue(s[|s| - 1])
  }

  lemma DigitRoundTrip(d: nat)
    requires d < 10
    ensures DigitValue(DigitChar(d)) == d
  {
  }

  /** Rendering then reading gives the number back. */
  lemma {:induction false} ParseNatToString(n: nat)
    ensures ParseDigits(NatToString(n)) == n
  {
    var s := NatToString(n);
    if n < 10 {
      DigitRoundTrip(n);
      assert s[..0] == [];
    } else {
      ParseNatToString(n / 10);
      DigitRoundTrip(n % 10);
      assert s[..|s| - 1] == NatToString(n / 10);
    }
  }

  /** Distinct numbers render differently. */
  lemma NatToStringInjective(a: nat, b: nat)
    requires NatToString(a) == NatToString(b)
    ensures a == b
  {
    ParseNatToString(a);
    ParseNatToString(b);
  }

  /** A fixed one-letter prefix followed by a number renders distinct numbers distinctly. */
  lemma PrefixedInjective(p: char, a: nat, b: nat)
    requires [p] + NatToString(a) == [p] + NatToString(b)
    ensures a == b
  {
    assert ([p] + NatToString(a))[1..] == NatToString(a);
    assert ([p] + NatToString(b))[1..] == NatToString(b);
    NatToStringInjective(a, b);
  }
}

=== FILE: generator.dfy ===
/** The whole generator run: structure synthesis, CPT shaping, then the ARFF
    file with one ancestrally sampled row per data point. Every random number
    the run consumes is an input. */
module Generator {
  import opened Seqs
  import opened BayesNet
  import opened Results
  import opened Structure
  import opened Cpts
  import opened Sampling
  import opened Arff

  /** The generator's settings; `relation` is the output file's name. */
  datatype Settings = Settings(cfg: Config, nDataPoints: int, alpha: real, relation: string)

  /** Structure draws, one gamma draw per CPT cell (node, row, outcome) and one
      uniform draw per data cell (row, column). */
  datatype Draws = Draws(structure: StructureDraws, gammas: seq<seq<seq<real>>>, uniforms: seq<seq<real>>)

  /** What a run produces: the network, its CPTs and the lines of the file. */
  datatype Dataset = Dataset(net: Network, cpts: seq<seq<real>>, lines: seq<string>)

  /** The data loop runs nDataPoints times; a negative count writes no rows. */
  function RowsToWrite(nDataPoints: int): nat
  {
    if nDataPoints < 0 then 0 else nDataPoints
  }

  /** Every draw lies in its documented range, for the stages that run. */
  predicate DrawsFitAll(s: Settings, d: Draws)
  {
    ValidConfig(s.cfg) ==>
      && DrawsFit(s.cfg, d.structure)
      && (s.alpha > 0.0 ==>
            var net := GenerateStructure(s.cfg, d.structure).value;
            && GammasFit(net, d.gammas)
            && |d.uniforms| == RowsToWrite(s.nDataPoints)
            && DatasetDraws(net, d.uniforms))
  }

  /** A data line that reads back as an ancestral sample of the given draws,
      one outcome per node, in eo order. */
  predicate SampledLine(net: Network, cpts: seq<seq<real>>, rands: seq<real>, line: string)
    requires Parametrized(net, cpts) && UniformDraws(net, rands)
  {
    && ParseDataLine(net, line).Some?
    && |ParseDataLine(net, line).value| == |net.eo|
    && IsAncestralSample(net, cpts, rands, ParseDataLine(net, line).value)
  }

  /** Runs the three stages; fails exactly when a setting makes the source
      throw. */
  function GenerateDataset(s: Settings, d: Draws): (r: Result<Dataset>)
    requires DrawsFitAll(s, d)
    ensures r.Err? <==> !ValidConfig(s.cfg) || s.alpha <= 0.0
    ensures r.Ok? ==> Parametrized(r.value.net, r.value.cpts)
    ensures r.Ok? ==> |r.value.net.nodes| == s.cfg.nVariables && r.value.net.eo == d.structure.order
    ensures r.Ok? ==> forall m :: 0 <= m < |r.value.net.nodes| ==> |r.value.net.nodes[m].outcomes| <= s.cfg.maxNValuesPerNode
    ensures r.Ok? ==> |d.uniforms| == RowsToWrite(s.nDataPoints) && DatasetDraws(r.value.net, d.uniforms)
    ensures r.Ok? ==> Written(s, d.uniforms, r.value)
  {
    match GenerateStructure(s.cfg, d.structure)
    case Err(e) => Err(e)
    case Ok(net) =>
      match GenerateCpts(net, s.alpha, d.gammas)
      case Err(e) => Err(e)
      case Ok(cpts) => Ok(WriteDataset(s, net, cpts, d.uniforms))
  }

  /** The file of a run: |eo| + 5 header lines then one line per data point;
      line 2 + j declares the node at eo position j with its outcomes, and
      data line i reads back as an ancestral sample of the i-th draws. */
  predicate Written(s: Settings, uniforms: seq<seq<real>>, ds: Dataset)
    requires Parametrized(ds.net, ds.cpts) && DatasetDraws(ds.net, uniforms)
    requires |uniforms| == RowsToWrite(s.nDataPoints)
  {
    && |ds.lines| == |ds.net.eo| + 5 + RowsToWrite(s.nDataPoints)
    && WrittenHeader(ds)
    && WrittenData(uniforms, ds)
  }

  predicate WrittenHeader(ds: Dataset)
    requires WellFormed(ds.net) && |ds.lines| >= |ds.net.eo| + 5
  {
    var net := ds.net;
    && ds.lines[|net.eo| + 3] == "@data"
    && forall j :: 0 <= j < |net.eo| ==>
         ParseAttributeLine(ds.lines[2 + j]) == Some(Attribute(NodeName(net.eo[j]), net.nodes[net.eo[j]].outcomes))
  }

  predicate WrittenData(uniforms: seq<seq<real>>, ds: Dataset)
    requires Parametrized(ds.net, ds.cpts) && DatasetDraws(ds.net, uniforms)
    requires |ds.lines| == |ds.net.eo| + 5 + |uniforms|
  {
    forall i :: 0 <= i < |uniforms| ==> SampledLine(ds.net, ds.cpts, uniforms[i], ds.lines[|ds.net.eo| + 5 + i])
  }

  /** Samples the rows and prints the file. */
  function WriteDataset(s: Settings, net: Network, cpts: seq<seq<real>>, uniforms: seq<seq<real>>): (ds: Dataset)
    requires Parametrized(net, cpts) && DatasetDraws(net, uniforms)
    requires |uniforms| == RowsToWrite(s.nDataPoints)
    ensures ds.net == net && ds.cpts == cpts
    ensures Written(s, uniforms, ds)
  {
    var rows := SampleRows(net, cpts, uniforms);
    assert RowsFit(net, rows);
    var ds := Dataset(net, cpts, ArffLines(s.relation, net, rows));
    WrittenFile(s, uniforms, rows, ds);
    ds
  }

  lemma WrittenFile(s: Settings, uniforms: seq<seq<real>>, rows: seq<seq<nat>>, ds: Dataset)
    requires Parametrized(ds.net, ds.cpts) && DatasetDraws(ds.net, uniforms)
    requires |uniforms| == RowsToWrite(s.nDataPoints)
    requires AncestralSamples(ds.net, ds.cpts, uniforms, rows) && RowsFit(ds.net, rows)
    requires ds.lines == ArffLines(s.relation, ds.net, rows)
    ensures Written(s, uniforms, ds)
  {
    HeaderOf(s, rows, ds);
    DataOf(s, uniforms, rows, ds);
  }

  lemma HeaderOf(s: Settings, rows: seq<seq<nat>>, ds: Dataset)
    requires WellFormed(ds.net) && RowsFit(ds.net, rows)
    requires ds.lines == ArffLines(s.relation, ds.net, rows)
    ensures |ds.lines| == |ds.net.eo| + 5 + |rows|
    ensures WrittenHeader(ds)
  {
    HeaderLayout(s.relation, ds.net, rows);
  }

  lemma DataOf(s: Settings, uniforms: seq<seq<real>>, rows: seq<seq<nat>>, ds: Dataset)
    requires Parametrized(ds.net, ds.cpts) && DatasetDraws(ds.net, uniforms)
    requires AncestralSamples(ds.net, ds.cpts, uniforms, rows) && RowsFit(ds.net, rows)
    requires ds.lines == ArffLines(s.relation, ds.net, rows)
    ensures |ds.lines| == |ds.net.eo| + 5 + |rows|
    ensures WrittenData(uniforms, ds)
  {
    DataLinesRead(s.relation, ds.net, rows, ds.lines);
    WrittenRows(uniforms, rows, ds);
  }

  /** The data-section facts of the file's contract, for a file known by name. */
  lemma DataLinesRead(relation: string, net: Network, rows: seq<seq<nat>>, lines: seq<string>)
    requires WellFormed(net) && RowsFit(net, rows)
    requires lines == ArffLines(relation, net, rows)
    ensures |lines| == |net.eo| + 5 + |rows|
    ensures forall i :: 0 <= i < |rows| ==> ParseDataLine(net, lines[|net.eo| + 5 + i]) == Some(rows[i])
  {
    forall i | 0 <= i < |rows|
      ensures ParseDataLine(net, lines[|net.eo| + 5 + i]) == Some(rows[i])
    {
      assert lines[|net.eo| + 5 + i] == DataLine(net, rows[i]);
    }
  }

  lemma WrittenRows(uniforms: seq<seq<real>>, rows: seq<seq<nat>>, ds: Dataset)
    requires Parametrized(ds.net, ds.cpts) && DatasetDraws(ds.net, uniforms)
    requires AncestralSamples(ds.net, ds.cpts, uniforms, rows)
    requires |ds.lines| == |ds.net.eo| + 5 + |rows|
    requires forall i :: 0 <= i < |rows| ==> ParseDataLine(ds.net, ds.lines[|ds.net.eo| + 5 + i]) == Some(rows[i])
    ensures WrittenData(uniforms, ds)
  {
    var net := ds.net;
    var n := |net.eo|;
    forall i | 0 <= i < |uniforms|
      ensures SampledLine(net, ds.cpts, uniforms[i], ds.lines[n + 5 + i])
    {
      RowLine(net, ds.cpts, uniforms[i], rows[i], ds.lines[n + 5 + i]);
    }
  }

  lemma RowLine(net: Network, cpts: seq<seq<real>>, rands: seq<real>, row: seq<nat>, line: string)
    requires Parametrized(net, cpts) && UniformDraws(net, rands)
    requires |row| == |net.eo| && IsAncestralSample(net, cpts, rands, row)
    requires ParseDataLine(net, line) == Some(row)
    ensures SampledLine(net, cpts, rands, line)
  {
  }

  /** Three binary nodes, at most two parents each, five data points, any
      positive Dirichlet parameter: the file has 13 lines, three attribute
      lines each declaring the domain {s0,s1}, and five data lines of three
      tokens, each token s0 or s1. */
  lemma SmallRun(relation: string, alpha: real, d: Draws)
    requires alpha > 0.0
    requires DrawsFitAll(Settings(Config(3, 2, 2), 5, alpha, relation), d)
    ensures GenerateDataset(Settings(Config(3, 2, 2), 5, alpha, relation), d).Ok?
    ensures var ds := GenerateDataset(Settings(Config(3, 2, 2), 5, alpha, relation), d).value;
      && |ds.lines| == 13
      && (forall j :: 2 <= j < 5 ==>
            ParseAttributeLine(ds.lines[j]).Some? && ParseAttributeLine(ds.lines[j]).value.outcomes == ["s0", "s1"])
      && forall i :: 8 <= i < 13 ==>
           |Split(ds.lines[i], ',')| == 3
           && forall t :: 0 <= t < 3 ==> Split(ds.lines[i], ',')[t] in ["s0", "s1"]
  {
    var s := Settings(Config(3, 2, 2), 5, alpha, relation);
    var r := GenerateDataset(s, d);
    assert r.Ok?;
    BinaryDataset(s, d.uniforms, r.value);
  }

  /** When every node has two outcomes, every domain is {s0,s1} and every
      data token is s0 or s1. */
  lemma BinaryDataset(s: Settings, uniforms: seq<seq<real>>, ds: Dataset)
    requires Parametrized(ds.net, ds.cpts) && DatasetDraws(ds.net, uniforms)
    requires |uniforms| == RowsToWrite(s.nDataPoints) && Written(s, uniforms, ds)
    requires forall m :: 0 <= m < |ds.net.nodes| ==> |ds.net.nodes[m].outcomes| <= 2
    ensures forall j :: 2 <= j < |ds.net.eo| + 2 ==>
      ParseAttributeLine(ds.lines[j]).Some? && ParseAttributeLine(ds.lines[j]).value.outcomes == ["s0", "s1"]
    ensures forall i :: |ds.net.eo| + 5 <= i < |ds.lines| ==>
      |Split(ds.lines[i], ',')| == |ds.net.eo|
      && forall t :: 0 <= t < |ds.net.eo| ==> Split(ds.lines[i], ',')[t] in ["s0", "s1"]
  {
    BinaryOutcomes(ds.net);
    BinaryDomains(s, uniforms, ds);
    BinaryTokens(s, uniforms, ds);
  }

  lemma BinaryOutcomes(net: Network)
    requires WellFormed(net)
    requires forall m :: 0 <= m < |net.nodes| ==> |net.nodes[m].outcomes| <= 2
    ensures forall m :: 0 <= m < |net.nodes| ==> net.nodes[m].outcomes == ["s0", "s1"]
  {
    BinaryLabels();
    forall m | 0 <= m < |net.nodes|
      ensures net.nodes[m].outcomes == ["s0", "s1"]
    {
      assert |net.nodes[m].outcomes| == 2;
    }
  }

  lemma BinaryDomains(s: Settings, uniforms: seq<seq<real>>, ds: Dataset)
    requires Parametrized(ds.net, ds.cpts) && DatasetDraws(ds.net, uniforms)
    requires |uniforms| == RowsToWrite(s.nDataPoints) && Written(s, uniforms, ds)
    requires forall m :: 0 <= m < |ds.net.nodes| ==> ds.net.nodes[m].outcomes == ["s0", "s1"]
    ensures forall j :: 2 <= j < |ds.net.eo| + 2 ==>
      ParseAttributeLine(ds.lines[j]).Some? && ParseAttributeLine(ds.lines[j]).value.outcomes == ["s0", "s1"]
  {
    var net := ds.net;
    forall j | 2 <= j < |net.eo| + 2
      ensures ParseAttributeLine(ds.lines[j]) == Some(Attribute(NodeName(net.eo[j - 2]), ["s0", "s1"]))
    {
      assert ds.lines[j] == ds.lines[2 + (j - 2)];
    }
  }

  lemma BinaryTokens(s: Settings, uniforms: seq<seq<real>>, ds: Dataset)
    requires Parametrized(ds.net, ds.cpts) && DatasetDraws(ds.net, uniforms)
    requires |uniforms| == RowsToWrite(s.nDataPoints) && Written(s, uniforms, ds)
    requires forall m :: 0 <= m < |ds.net.nodes| ==> ds.net.nodes[m].outcomes == ["s0", "s1"]
    ensures forall i :: |ds.net.eo| + 5 <= i < |ds.lines| ==>
      |Split(ds.lines[i], ',')| == |ds.net.eo|
      && forall t :: 0 <= t < |ds.net.eo| ==> Split(ds.lines[i], ',')[t] in ["s0", "s1"]
  {
    var net := ds.net;
    var n := |net.eo|;
    forall i | n + 5 <= i < |ds.lines|
      ensures |Split(ds.lines[i], ',')| == n
      ensures forall t :: 0 <= t < n ==> Split(ds.lines[i], ',')[t] in ["s0", "s1"]
    {
      var k := i - n - 5;
      assert UniformDraws(net, uniforms[k]);
      assert WrittenData(uniforms, ds);
      assert SampledLine(net, ds.cpts, uniforms[k], ds.lines[n + 5 + k]);
      DataLineTokens(net, ds.lines[i]);
    }
  }

  /** A data line that reads back has one token per node, each an outcome of
      the node of its column. */
  lemma DataLineTokens(net: Network, line: string)
    requires WellFormed(net) && ParseDataLine(net, line).Some?
    ensures |Split(line, ',')| == |net.eo|
    ensures forall j :: 0 <= j < |net.eo| ==> Split(line, ',')[j] in net.nodes[net.eo[j]].outcomes
  {
  }
}

=== FILE: mixedradix.dfy ===
/** Mixed-radix numbering of parent configurations. A node with parents of
    outcome counts c0, ..., c(k-1) has c0 * ... * c(k-1) CPT rows (one when it
    has no parents); the configuration (v0, ..., v(k-1)) selects the row whose
    digits are v0 (most significant) through v(k-1) (varying fastest). */
module MixedRadix {
  import opened Seqs

  /** A configuration: one value per parent, each below that parent's count. */
  predicate IsConfig(counts: seq<nat>, vals: seq<nat>)
  {
    |vals| == |counts| && forall k :: 0 <= k < |vals| ==> vals[k] < counts[k]
  }

  lemma ConfigPrefix(counts: seq<nat>, vals: seq<nat>)
    requires IsConfig(counts, vals) && |counts| > 0
    ensures IsConfig(counts[..|counts| - 1], vals[..|vals| - 1])
  {
  }

  /** Row of a configuration in the CPT. */
  function RowIndex(counts: seq<nat>, vals: seq<nat>): (row: nat)
    requires IsConfig(counts, vals)
    ensures row < Product(counts)
  {
    if |counts| == 0 then 0
    else
      var n := |counts|;
      ConfigPrefix(counts, vals);
      var high := RowIndex(counts[..n - 1], vals[..n - 1]);
      RowBound(high, Product(counts[..n - 1]), vals[n - 1], counts[n - 1]);
      high * counts[n - 1] + vals[n - 1]
  }

  lemma RowBound(high: nat, p: nat, v: nat, c: nat)
    requires high < p && v < c
    ensures high * c + v < p * c
  {
    assert high * c <= (p - 1) * c;
  }

  /** The configuration that a row stands for. */
  function RowConfig(counts: seq<nat>, row: nat): (vals: seq<nat>)
    requires row < Product(counts)
    ensures IsConfig(counts, vals)
  {
    if |counts| == 0 then []
    else
      var n := |counts|;
      var c := counts[n - 1];
      QuotientBound(row, Product(counts[..n - 1]), c);
      RowConfig(counts[..n - 1], row / c) + [row % c]
  }

  lemma QuotientBound(row: nat, p: nat, c: nat)
    requires row < p * c
    ensures c > 0 && row / c < p && row % c < c
  {
  }

  /** Numbering a configuration and decoding the row gives it back. */
  lemma {:induction false} RowConfigOfIndex(counts: seq<nat>, vals: seq<nat>)
    requires IsConfig(counts, vals)
    ensures RowConfig(counts, RowIndex(counts, vals)) == vals
    decreases |counts|
  {
    if |counts| > 0 {
      var n := |counts|;
      var c := counts[n - 1];
      var high := RowIndex(counts[..n - 1], vals[..n - 1]);
      var row := RowIndex(counts, vals);
      assert row == high * c + vals[n - 1];
      DivMod(high, c, vals[n - 1]);
      RowConfigOfIndex(counts[..n - 1], vals[..n - 1]);
      assert vals == vals[..n - 1] + [vals[n - 1]];
    }
  }

  lemma DivMod(q: nat, c: nat, r: nat)
    requires r < c
    ensures (q * c + r) / c == q && (q * c + r) % c == r
  {
    var x := q * c + r;
    var q', r' := x / c, x % c;
    assert x == q' * c + r' && 0 <= r' < c;
    if q' > q {
      MulMono(q + 1, q', c);
    } else if q' < q {
      MulMono(q' + 1, q, c);
    }
  }

  lemma MulMono(a: nat, b: nat, c: nat)
    requires a <= b
    ensures a * c <= b * c
  {
  }

  /** Every row below the row count is the number of exactly one configuration. */
  lemma {:induction false} RowIndexOfConfig(counts: seq<nat>, row: nat)
    requires row < Product(counts)
    ensures RowIndex(counts, RowConfig(counts, row)) == row
    decreases |counts|
  {
    if |counts| > 0 {
      var n := |counts|;
      var c := counts[n - 1];
      var vals := RowConfig(counts, row);
      QuotientBound(row, Product(counts[..n - 1]), c);
      assert vals[..n - 1] == RowConfig(counts[..n - 1], row / c);
      RowIndexOfConfig(counts[..n - 1], row / c);
    }
  }

  /** Distinct configurations occupy distinct rows. */
  lemma RowIndexInjective(counts: seq<nat>, a: seq<nat>, b: seq<nat>)
    requires IsConfig(counts, a) && IsConfig(counts, b)
    requires RowIndex(counts, a) == RowIndex(counts, b)
    ensures a == b
  {
    RowConfigOfIndex(counts, a);
    RowConfigOfIndex(counts, b);
  }
}

=== FILE: network.dfy ===
/** The minimal Bayesian-network data model: a node has a name, an ordered
    outcome list and an ordered parent list (node indices); a network is the
    node array plus the elimination order `eo` that witnesses acyclicity. */
module BayesNet {
  import opened Seqs
  import opened Decimal

  datatype Node = Node(name: string, outcomes: seq<string>, parents: seq<nat>)

  datatype Network = Network(nodes: seq<Node>, eo: seq<nat>)

  /** Outcome j of every node is labelled "s" followed by j in decimal. */
  function OutcomeLabel(j: nat): string
  {
    "s" + NatToString(j)
  }

  /** Node i (0-based creation index) is named "n" followed by i + 1. */
  function NodeName(i: nat): string
  {
    "n" + NatToString(i + 1)
  }

  /** The outcome list s0, s1, ..., s(k-1), in creation order. */
  function Labels(k: nat): (ls: seq<string>)
    ensures |ls| == k
  {
    seq(k, j requires 0 <= j < k => OutcomeLabel(j))
  }

  /** The two outcome labels of a binary node. */
  lemma BinaryLabels()
    ensures Labels(2) == ["s0", "s1"]
  {
    assert DigitChar(0) == '0' && DigitChar(1) == '1';
    assert OutcomeLabel(0) == "s0" && OutcomeLabel(1) == "s1";
  }

  lemma OutcomeLabelInjective(a: nat, b: nat)
    requires OutcomeLabel(a) == OutcomeLabel(b)
    ensures a == b
  {
    PrefixedInjective('s', a, b);
  }

  lemma NodeNameInjective(a: nat, b: nat)
    requires NodeName(a) == NodeName(b)
    ensures a == b
  {
    PrefixedInjective('n', a + 1, b + 1);
  }

  /** No two outcomes of a node share a label, so a label names one outcome. */
  lemma LabelsDistinct(k: nat)
    ensures Distinct(Labels(k))
  {
    var ls := Labels(k);
    forall i, j | 0 <= i < j < k
      ensures ls[i] != ls[j]
    {
      if ls[i] == ls[j] {
        OutcomeLabelInjective(i, j);
      }
    }
  }

  /** Looking a label up in the outcome list gives back its index. */
  lemma LabelIndex(k: nat, j: nat)
    requires j < k
    ensures Labels(k)[j] == OutcomeLabel(j)
    ensures IndexOf(Labels(k), Labels(k)[j]) == j
  {
    LabelsDistinct(k);
    IndexOfDistinct(Labels(k), j);
  }

  /** Labels hold no character outside the letter and the digits; in
      particular no comma, brace or space. */
  lemma LabelChars(j: nat, c: char)
    requires c in OutcomeLabel(j)
    ensures c == 's' || IsDigit(c)
  {
    var l := OutcomeLabel(j);
    var i :| 0 <= i < |l| && l[i] == c;
    if i > 0 {
      assert l[i] == NatToString(j)[i - 1];
    }
  }

  lemma NameChars(i: nat, c: char)
    requires c in NodeName(i)
    ensures c == 'n' || IsDigit(c)
  {
    var l := NodeName(i);
    var k :| 0 <= k < |l| && l[k] == c;
    if k > 0 {
      assert l[k] == NatToString(i + 1)[k - 1];
    }
  }

  /** eo lists each of the n node indices exactly once. */
  predicate IsPermutation(eo: seq<nat>, n: nat)
  {
    && |eo| == n
    && (forall i :: 0 <= i < n ==> eo[i] < n)
    && Distinct(eo)
  }

  /** Every parent of the node at position i of eo sits at an earlier position. */
  predicate ParentsPrecede(nodes: seq<Node>, eo: seq<nat>)
    requires forall i :: 0 <= i < |eo| ==> eo[i] < |nodes|
  {
    forall i, p :: 0 <= i < |eo| && p in nodes[eo[i]].parents ==>
      exists k :: 0 <= k < i && eo[k] == p
  }

  /** Node m is named after its index, has at least two outcomes labelled
      s0, s1, ... in order, and distinct parents that are nodes of the network. */
  predicate NodesWellFormed(nodes: seq<Node>)
  {
    && (forall m :: 0 <= m < |nodes| ==> nodes[m].name == NodeName(m))
    && (forall m :: 0 <= m < |nodes| ==> |nodes[m].outcomes| >= 2)
    && (forall m :: 0 <= m < |nodes| ==> nodes[m].outcomes == Labels(|nodes[m].outcomes|))
    && (forall m :: 0 <= m < |nodes| ==> Distinct(nodes[m].parents))
    && (forall m, k :: 0 <= m < |nodes| && 0 <= k < |nodes[m].parents| ==> nodes[m].parents[k] < |nodes|)
  }

  /** The network invariant: at least one node, well-formed nodes, eo a
      permutation of the node indices, and every parent earlier in eo. */
  predicate WellFormed(net: Network)
  {
    && |net.nodes| >= 1
    && IsPermutation(net.eo, |net.nodes|)
    && NodesWellFormed(net.nodes)
    && ParentsPrecede(net.nodes, net.eo)
  }

  function OutcomeCount(net: Network, m: nat): nat
    requires m < |net.nodes|
  {
    |net.nodes[m].outcomes|
  }

  /** Each column of a (partial) data row holds an outcome index of the node
      at that eo position. */
  predicate ValidColumns(net: Network, row: seq<nat>)
    requires WellFormed(net) && |row| <= |net.eo|
  {
    forall j :: 0 <= j < |row| ==> row[j] < OutcomeCount(net, net.eo[j])
  }

  /** The parents' outcome counts, in parent-list order: the radices of the
      node's CPT rows. */
  function ParentCounts(net: Network, m: nat): (cs: seq<nat>)
    requires WellFormed(net) && m < |net.nodes|
    ensures |cs| == |net.nodes[m].parents|
    ensures forall k :: 0 <= k < |cs| ==> cs[k] == OutcomeCount(net, net.nodes[m].parents[k]) && cs[k] >= 2
  {
    var ps := net.nodes[m].parents;
    seq(|ps|, k requires 0 <= k < |ps| => OutcomeCount(net, ps[k]))
  }

  /** Position of node m in the elimination order. */
  function Pos(net: Network, m: nat): (i: nat)
    requires WellFormed(net) && m < |net.nodes|
    ensures i < |net.eo| && net.eo[i] == m
  {
    PermutationCovers(net.eo, |net.nodes|, m);
    IndexOf(net.eo, m)
  }

  /** The eo positions of the parents of the node at position j, each
      strictly before j. */
  function ParentPositions(net: Network, j: nat): (ps: seq<nat>)
    requires WellFormed(net) && j < |net.eo|
    ensures |ps| == |net.nodes[net.eo[j]].parents|
    ensures forall k :: 0 <= k < |ps| ==> ps[k] < j && net.eo[ps[k]] == net.nodes[net.eo[j]].parents[k]
  {
    var parents := net.nodes[net.eo[j]].parents;
    seq(|parents|, k requires 0 <= k < |parents| =>
      PrecedingPosition(net, j, parents[k]))
  }

  function PrecedingPosition(net: Network, j: nat, p: nat): (k: nat)
    requires WellFormed(net) && j < |net.eo| && p in net.nodes[net.eo[j]].parents
    ensures k < j && net.eo[k] == p
  {
    var k' :| 0 <= k' < j && net.eo[k'] == p;
    IndexOfDistinct(net.eo, k');
    IndexOf(net.eo, p)
  }

  /** Distinct indices below n, n of them, cover every index below n. */
  lemma PermutationCovers(eo: seq<nat>, n: nat, m: nat)
    requires IsPermutation(eo, n) && m < n
    ensures m in eo
  {
    var elems := set i | 0 <= i < n :: eo[i];
    var iota := seq(n, i requires 0 <= i < n => i);
    var range := set i | 0 <= i < n :: iota[i];
    DistinctCard(eo);
    DistinctCard(iota);
    if m !in eo {
      assert forall i :: 0 <= i < n ==> eo[i] == iota[eo[i]];
      assert elems <= range - {m};
      assert iota[m] == m;
      assert |range - {m}| == n - 1;
      SubsetCard(elems, range - {m});
    }
  }

  lemma SubsetCard(a: set<nat>, b: set<nat>)
    requires a <= b
    ensures |a| <= |b|
  {
    assert b == a + (b - a);
  }

  lemma {:induction false} DistinctCard(s: seq<nat>)
    requires Distinct(s)
    ensures |set i | 0 <= i < |s| :: s[i]| == |s|
    decreases |s|
  {
    if |s| > 0 {
      var n := |s|;
      var t := s[..n - 1];
      DistinctCard(t);
      var st := set i | 0 <= i < |t| :: t[i];
      var ss := set i | 0 <= i < n :: s[i];
      assert ss == st + {s[n - 1]};
      assert s[n - 1] !in st;
    }
  }

  /** A directed path following parent-to-child edges. */
  predicate IsPath(net: Network, path: seq<nat>)
  {
    && |path| >= 2
    && (forall k :: 0 <= k < |path| ==> path[k] < |net.nodes|)
    && (forall k :: 0 <= k < |path| - 1 ==> path[k] in net.nodes[path[k + 1]].parents)
  }

  /** Every edge goes strictly forward in eo. */
  lemma EdgeForward(net: Network, p: nat, m: nat)
    requires WellFormed(net) && m < |net.nodes| && p in net.nodes[m].parents
    ensures p < |net.nodes| && Pos(net, p) < Pos(net, m)
  {
    var j := Pos(net, m);
    var k := PrecedingPosition(net, j, p);
    IndexOfDistinct(net.eo, k);
  }

  lemma {:induction false} PathForward(net: Network, path: seq<nat>)
    requires WellFormed(net) && IsPath(net, path)
    ensures Pos(net, path[0]) < Pos(net, path[|path| - 1])
    decreases |path|
  {
    EdgeForward(net, path[|path| - 2], path[|path| - 1]);
    if |path| > 2 {
      PathForward(net, path[..|path| - 1]);
    }
  }

  /** Acyclicity: no directed path returns to its start. */
  lemma NoCycle(net: Network, path: seq<nat>)
    requires WellFormed(net) && IsPath(net, path)
    ensures path[0] != path[|path| - 1]
  {
    PathForward(net, path);
  }
}

=== FILE: results.dfy ===
/** The outcome of a generation stage: a value, or the reason it failed. */
module Results {

  /** A setting the source rejects by throwing: a negative node-array size,
      or an argument outside the range a random call accepts. */
  datatype GenError = InvalidConfiguration

  datatype Result<T> = Ok(value: T) | Err(error: GenError)

  datatype Option<T> = None | Some(value: T)
}

=== FILE: sampling.dfy ===
/** Ancestral sampling of one data row: the nodes are visited in elimination
    order; each looks up the CPT row selected by its parents' already-sampled
    outcomes and picks an outcome by inverse-CDF selection on a uniform draw. */
module Sampling {
  import opened Seqs
  import opened BayesNet
  import opened MixedRadix
  import opened Cpts

  /** The first index whose running total reaches rand. */
  function FirstReaching(p: seq<real>, rand: real): (k: nat)
    requires |p| > 0 && rand <= Sum(p)
    ensures k < |p|
    ensures rand <= CumSum(p, k)
    ensures forall j :: 0 <= j < k ==> CumSum(p, j) < rand
  {
    FirstReachingFrom(p, rand, 0)
  }

  function FirstReachingFrom(p: seq<real>, rand: real, i: nat): (k: nat)
    requires i < |p| && rand <= Sum(p)
    requires forall j :: 0 <= j < i ==> CumSum(p, j) < rand
    ensures i <= k < |p|
    ensures rand <= CumSum(p, k)
    ensures forall j :: 0 <= j < k ==> CumSum(p, j) < rand
    decreases |p| - i
  {
    if rand <= CumSum(p, i) then i
    else
      CumSumLast(p);
      FirstReachingFrom(p, rand, i + 1)
  }

  /** Only one index is the first to reach rand. */
  lemma FirstReachingUnique(p: seq<real>, rand: real, k: nat)
    requires |p| > 0 && rand <= Sum(p)
    requires k < |p| && rand <= CumSum(p, k)
    requires forall j :: 0 <= j < k ==> CumSum(p, j) < rand
    ensures k == FirstReaching(p, rand)
  {
  }

  /** The selection loop: accumulate probabilities until the running total
      reaches rand. It never runs off the end of the row. */
  method SelectOutcome(probas: seq<real>, rand: real) returns (chosen: nat)
    requires |probas| > 0 && rand <= Sum(probas)
    ensures chosen < |probas|
    ensures rand <= CumSum(probas, chosen)
    ensures forall j :: 0 <= j < chosen ==> CumSum(probas, j) < rand
    ensures chosen == FirstReaching(probas, rand)
  {
    chosen := 0;
    var sumProba := probas[chosen];
    CumSumFirst(probas);
    while rand > sumProba
      invariant chosen < |probas|
      invariant sumProba == CumSum(probas, chosen)
      invariant forall j :: 0 <= j < chosen ==> CumSum(probas, j) < rand
      decreases |probas| - chosen
    {
      CumSumLast(probas);
      chosen := chosen + 1;
      CumSumStep(probas, chosen - 1);
      sumProba := sumProba + probas[chosen];
    }
    FirstReachingUnique(probas, rand, chosen);
  }

  /** A row's worth of uniform draws: one per column, each in [0, 1). */
  predicate UniformDraws(net: Network, rands: seq<real>)
  {
    |rands| == |net.eo| && forall j :: 0 <= j < |rands| ==> 0.0 <= rands[j] < 1.0
  }

  /** A network with a valid CPT for every node. */
  predicate Parametrized(net: Network, cpts: seq<seq<real>>)
  {
    WellFormed(net) && CptsOk(net, cpts)
  }

  /** The outcome chosen for the node at position j, given its parents'
      outcome indices in parent-list order. */
  function Draw(net: Network, cpts: seq<seq<real>>, j: nat, vals: seq<nat>, rand: real): (c: nat)
    requires Parametrized(net, cpts) && j < |net.eo|
    requires IsConfig(ParentCounts(net, net.eo[j]), vals)
    requires 0.0 <= rand < 1.0
    ensures c < OutcomeCount(net, net.eo[j])
  {
    var m := net.eo[j];
    var v := OutcomeCount(net, m);
    var row := RowIndex(ParentCounts(net, m), vals);
    assert CptOk(net, m, cpts[m]);
    RowFits(RowCount(net, m), v, row);
    FirstReaching(CptRow(cpts[m], v, row), rand)
  }

  /** The parents' outcomes of the node at position j, read off the row itself. */
  function ParentValues(net: Network, row: seq<nat>, j: nat): (vals: seq<nat>)
    requires WellFormed(net) && j < |net.eo| && j <= |row| <= |net.eo| && ValidColumns(net, row)
    ensures IsConfig(ParentCounts(net, net.eo[j]), vals)
  {
    var ps := ParentPositions(net, j);
    seq(|ps|, k requires 0 <= k < |ps| => row[ps[k]])
  }

  /** The declarative meaning of a sampled row: every column is the inverse-CDF
      choice of its own draw in the CPT row that the parents' columns select. */
  predicate IsAncestralSample(net: Network, cpts: seq<seq<real>>, rands: seq<real>, row: seq<nat>)
    requires Parametrized(net, cpts) && UniformDraws(net, rands)
  {
    && |row| <= |net.eo|
    && ValidColumns(net, row)
    && forall j :: 0 <= j < |row| ==> SampledAt(net, cpts, rands, row, j)
  }

  /** Column j is the choice its draw makes in the CPT row its parents select. */
  predicate SampledAt(net: Network, cpts: seq<seq<real>>, rands: seq<real>, row: seq<nat>, j: nat)
    requires Parametrized(net, cpts) && UniformDraws(net, rands)
    requires j < |row| <= |net.eo| && ValidColumns(net, row)
  {
    row[j] == Draw(net, cpts, j, ParentValues(net, row, j), rands[j])
  }

  /** The evidence map holds, for every node already visited, the label of its
      sampled outcome. */
  predicate EvidenceOf(net: Network, ev: map<nat, string>, acc: seq<nat>)
    requires WellFormed(net) && |acc| <= |net.eo| && ValidColumns(net, acc)
  {
    forall k :: 0 <= k < |acc| ==> net.eo[k] in ev && ev[net.eo[k]] == net.nodes[net.eo[k]].outcomes[acc[k]]
  }

  /** The parents' outcome indices as the source recovers them: by looking up
      each parent's label from the evidence map in that parent's outcome list. */
  function EvidenceValues(net: Network, ev: map<nat, string>, j: nat): (vals: seq<nat>)
    requires WellFormed(net) && j < |net.eo|
    requires forall p :: p in net.nodes[net.eo[j]].parents ==> p in ev && ev[p] in net.nodes[p].outcomes
    ensures |vals| == |net.nodes[net.eo[j]].parents|
  {
    var ps := net.nodes[net.eo[j]].parents;
    seq(|ps|, k requires 0 <= k < |ps| => IndexOf(net.nodes[ps[k]].outcomes, ev[ps[k]]))
  }

  /** Every parent of the node visited at position j is already in the
      evidence, and what the evidence yields is the parents' sampled outcomes. */
  lemma ParentsAlreadySampled(net: Network, ev: map<nat, string>, acc: seq<nat>)
    requires WellFormed(net) && |acc| < |net.eo| && ValidColumns(net, acc) && EvidenceOf(net, ev, acc)
    ensures forall p :: p in net.nodes[net.eo[|acc|]].parents ==> p in ev && ev[p] in net.nodes[p].outcomes
    ensures EvidenceValues(net, ev, |acc|) == ParentValues(net, acc, |acc|)
  {
    var j := |acc|;
    var ps := ParentPositions(net, j);
    var parents := net.nodes[net.eo[j]].parents;
    forall k | 0 <= k < |parents|
      ensures parents[k] in ev && ev[parents[k]] in net.nodes[parents[k]].outcomes
      ensures IndexOf(net.nodes[parents[k]].outcomes, ev[parents[k]]) == acc[ps[k]]
    {
      var p := parents[k];
      assert net.eo[ps[k]] == p;
      LabelIndex(OutcomeCount(net, p), acc[ps[k]]);
    }
  }

  /** What holds between two steps of the row loop: the columns sampled so
      far meet the sampling equations and the evidence records them. */
  predicate Visited(net: Network, cpts: seq<seq<real>>, rands: seq<real>, acc: seq<nat>, ev: map<nat, string>)
  {
    && Parametrized(net, cpts)
    && UniformDraws(net, rands)
    && IsAncestralSample(net, cpts, rands, acc)
    && EvidenceOf(net, ev, acc)
  }

  /** Sampling from position |acc| to the end, with the evidence of the
      columns already sampled. */
  function SampleFrom(net: Network, cpts: seq<seq<real>>, rands: seq<real>, acc: seq<nat>, ev: map<nat, string>): (row: seq<nat>)
    requires Visited(net, cpts, rands, acc, ev)
    ensures |row| == |net.eo| && row[..|acc|] == acc
    ensures IsAncestralSample(net, cpts, rands, row)
    decreases |net.eo| - |acc|
  {
    if |acc| == |net.eo| then acc
    else
      var (acc', ev') := Step(net, cpts, rands, acc, ev);
      var row := SampleFrom(net, cpts, rands, acc', ev');
      PrefixOfPrefix(row, acc, acc');
      row
  }

  /** One turn of the row loop: sample the next column and record it. */
  function Step(net: Network, cpts: seq<seq<real>>, rands: seq<real>, acc: seq<nat>, ev: map<nat, string>): (r: (seq<nat>, map<nat, string>))
    requires Visited(net, cpts, rands, acc, ev) && |acc| < |net.eo|
    ensures Visited(net, cpts, rands, r.0, r.1)
    ensures |r.0| == |acc| + 1 && r.0[..|acc|] == acc
  {
    var c := NextOutcome(net, cpts, rands, acc, ev);
    ExtendEvidence(net, ev, acc, c);
    ExtendSample(net, cpts, rands, acc, c);
    assert (acc + [c])[..|acc|] == acc;
    (acc + [c], Record(net, ev, |acc|, c))
  }

  /** The outcome of the node at position |acc|: its parents' outcomes are
      read from the evidence, and agree with the columns already sampled. */
  function NextOutcome(net: Network, cpts: seq<seq<real>>, rands: seq<real>, acc: seq<nat>, ev: map<nat, string>): (c: nat)
    requires Parametrized(net, cpts) && UniformDraws(net, rands)
    requires |acc| < |net.eo| && ValidColumns(net, acc) && EvidenceOf(net, ev, acc)
    ensures c < OutcomeCount(net, net.eo[|acc|])
    ensures c == Draw(net, cpts, |acc|, ParentValues(net, acc, |acc|), rands[|acc|])
  {
    ParentsAlreadySampled(net, ev, acc);
    Draw(net, cpts, |acc|, EvidenceValues(net, ev, |acc|), rands[|acc|])
  }

  /** The evidence after the node at position j took outcome c. */
  function Record(net: Network, ev: map<nat, string>, j: nat, c: nat): map<nat, string>
    requires WellFormed(net) && j < |net.eo| && c < OutcomeCount(net, net.eo[j])
  {
    ev[net.eo[j] := net.nodes[net.eo[j]].outcomes[c]]
  }

  lemma PrefixOfPrefix(row: seq<nat>, acc: seq<nat>, acc': seq<nat>)
    requires |acc| < |acc'| <= |row| && row[..|acc'|] == acc' && acc'[..|acc|] == acc
    ensures row[..|acc|] == acc
  {
    assert row[..|acc|] == row[..|acc'|][..|acc|];
  }

  lemma ExtendSample(net: Network, cpts: seq<seq<real>>, rands: seq<real>, acc: seq<nat>, c: nat)
    requires Parametrized(net, cpts) && UniformDraws(net, rands)
    requires IsAncestralSample(net, cpts, rands, acc) && |acc| < |net.eo|
    requires c < OutcomeCount(net, net.eo[|acc|])
    requires c == Draw(net, cpts, |acc|, ParentValues(net, acc, |acc|), rands[|acc|])
    ensures IsAncestralSample(net, cpts, rands, acc + [c])
  {
    var row := acc + [c];
    assert row[..|acc|] == acc;
    assert ValidColumns(net, row);
    forall j | 0 <= j < |row|
      ensures SampledAt(net, cpts, rands, row, j)
    {
      ParentValuesPrefix(net, acc, row, j);
      if j < |acc| {
        assert SampledAt(net, cpts, rands, acc, j);
        assert row[j] == acc[j];
      }
    }
  }

  lemma ParentValuesPrefix(net: Network, acc: seq<nat>, row: seq<nat>, j: nat)
    requires WellFormed(net) && j < |net.eo| && j <= |acc| <= |row| <= |net.eo|
    requires ValidColumns(net, acc) && ValidColumns(net, row) && row[..|acc|] == acc
    ensures ParentValues(net, row, j) == ParentValues(net, acc, j)
  {
    var ps := ParentPositions(net, j);
    forall k | 0 <= k < |ps|
      ensures row[ps[k]] == acc[ps[k]]
    {
      assert row[..|acc|][ps[k]] == row[ps[k]];
    }
  }

  lemma ExtendEvidence(net: Network, ev: map<nat, string>, acc: seq<nat>, c: nat)
    requires WellFormed(net) && |acc| < |net.eo| && ValidColumns(net, acc) && EvidenceOf(net, ev, acc)
    requires c < OutcomeCount(net, net.eo[|acc|])
    ensures ValidColumns(net, acc + [c])
    ensures EvidenceOf(net, Record(net, ev, |acc|, c), acc + [c])
  {
    var j := |acc|;
    forall k | 0 <= k < j
      ensures net.eo[k] != net.eo[j]
    {
    }
  }

  /** One data row, sampled with an evidence map that starts out empty. */
  function SampleRow(net: Network, cpts: seq<seq<real>>, rands: seq<real>): (row: seq<nat>)
    requires Parametrized(net, cpts) && UniformDraws(net, rands)
    ensures |row| == |net.eo|
    ensures IsAncestralSample(net, cpts, rands, row)
  {
    SampleFrom(net, cpts, rands, [], map[])
  }

  /** Two rows that both meet the ancestral-sampling equations for the same
      draws are equal: the equations determine the row. */
  lemma AncestralSampleUnique(net: Network, cpts: seq<seq<real>>, rands: seq<real>, a: seq<nat>, b: seq<nat>)
    requires Parametrized(net, cpts) && UniformDraws(net, rands)
    requires IsAncestralSample(net, cpts, rands, a) && IsAncestralSample(net, cpts, rands, b)
    requires |a| == |b|
    ensures a == b
  {
    AgreeUpTo(net, cpts, rands, a, b, |a|);
  }

  lemma {:induction false} AgreeUpTo(net: Network, cpts: seq<seq<real>>, rands: seq<real>, a: seq<nat>, b: seq<nat>, n: nat)
    requires Parametrized(net, cpts) && UniformDraws(net, rands)
    requires IsAncestralSample(net, cpts, rands, a) && IsAncestralSample(net, cpts, rands, b)
    requires |a| == |b| && n <= |a|
    ensures forall k :: 0 <= k < n ==> a[k] == b[k]
  {
    if n > 0 {
      var j := n - 1;
      AgreeUpTo(net, cpts, rands, a, b, j);
      AgreeAt(net, cpts, rands, a, b, j);
    }
  }

  /** Rows meeting the equations that agree before position j agree at j. */
  lemma AgreeAt(net: Network, cpts: seq<seq<real>>, rands: seq<real>, a: seq<nat>, b: seq<nat>, j: nat)
    requires Parametrized(net, cpts) && UniformDraws(net, rands)
    requires IsAncestralSample(net, cpts, rands, a) && IsAncestralSample(net, cpts, rands, b)
    requires j < |a| == |b|
    requires forall k :: 0 <= k < j ==> a[k] == b[k]
    ensures a[j] == b[j]
  {
    SameParentValues(net, a, b, j);
    assert SampledAt(net, cpts, rands, a, j);
    assert SampledAt(net, cpts, rands, b, j);
  }

  /** Rows that agree before position j give the node at j the same parent
      outcomes. */
  lemma SameParentValues(net: Network, a: seq<nat>, b: seq<nat>, j: nat)
    requires WellFormed(net) && j < |a| == |b| <= |net.eo|
    requires ValidColumns(net, a) && ValidColumns(net, b)
    requires forall k :: 0 <= k < j ==> a[k] == b[k]
    ensures ParentValues(net, a, j) == ParentValues(net, b, j)
  {
  }

  /** The draws for a whole dataset: one row of column draws per data point. */
  predicate DatasetDraws(net: Network, rands: seq<seq<real>>)
  {
    forall i :: 0 <= i < |rands| ==> UniformDraws(net, rands[i])
  }

  /** All data rows, each sampled independently from its own draws: the
      evidence is cleared between rows, so nothing carries over. */
  function SampleRows(net: Network, cpts: seq<seq<real>>, rands: seq<seq<real>>): (rows: seq<seq<nat>>)
    requires Parametrized(net, cpts) && DatasetDraws(net, rands)
    ensures AncestralSamples(net, cpts, rands, rows)
  {
    seq(|rands|, i requires 0 <= i < |rands| => SampleRow(net, cpts, rands[i]))
  }

  /** Row i is a complete ancestral sample of the i-th draws. */
  predicate AncestralSamples(net: Network, cpts: seq<seq<real>>, rands: seq<seq<real>>, rows: seq<seq<nat>>)
    requires Parametrized(net, cpts) && DatasetDraws(net, rands)
  {
    && |rows| == |rands|
    && forall i :: 0 <= i < |rows| ==> |rows[i]| == |net.eo| && IsAncestralSample(net, cpts, rands[i], rows[i])
  }

  /** Evidence left over from an earlier row is never read: whatever the map
      holds when a row starts, every node is recorded before any child looks
      it up, so the row is the one sampled from empty evidence. Clearing the
      evidence between rows therefore changes no row. */
  lemma StaleEvidenceHarmless(net: Network, cpts: seq<seq<real>>, rands: seq<real>, ev: map<nat, string>)
    requires Parametrized(net, cpts) && UniformDraws(net, rands)
    ensures SampleFrom(net, cpts, rands, [], ev) == SampleRow(net, cpts, rands)
  {
    AncestralSampleUnique(net, cpts, rands, SampleFrom(net, cpts, rands, [], ev), SampleRow(net, cpts, rands));
  }
}

=== FILE: seqs.dfy ===
/** Sequence utilities shared by the generator model: real sums, natural
    products, distinctness, positions, and the comma-joined token format. */
module Seqs {

  /** Sum of a sequence of reals, accumulated left to right. */
  function Sum(s: seq<real>): real
  {
    if |s| == 0 then 0.0 else Sum(s[..|s| - 1]) + s[|s| - 1]
  }

  /** Sum of the first k + 1 entries: the running total after visiting index k. */
  function CumSum(s: seq<real>, k: nat): real
    requires k < |s|
  {
    Sum(s[..k + 1])
  }

  /** Product of a sequence of naturals; the empty product is 1. */
  function Product(s: seq<nat>): nat
  {
    if |s| == 0 then 1 else Product(s[..|s| - 1]) * s[|s| - 1]
  }

  predicate Distinct<T(==)>(s: seq<T>)
  {
    forall i, j :: 0 <= i < j < |s| ==> s[i] != s[j]
  }

  predicate AllPositive(s: seq<real>)
  {
    forall k :: 0 <= k < |s| ==> s[k] > 0.0
  }

  /** The first position at which x occurs in s. */
  function IndexOf<T(==)>(s: seq<T>, x: T): (i: nat)
    requires x in s
    ensures i < |s| && s[i] == x
    ensures forall k :: 0 <= k < i ==> s[k] != x
  {
    if s[0] == x then 0 else 1 + IndexOf(s[1..], x)
  }

  lemma IndexOfDistinct<T>(s: seq<T>, i: nat)
    requires Distinct(s) && i < |s|
    ensures IndexOf(s, s[i]) == i
  {
  }

  lemma CumSumStep(s: seq<real>, k: nat)
    requires k + 1 < |s|
    ensures CumSum(s, k + 1) == CumSum(s, k) + s[k + 1]
  {
    assert s[..k + 2][..k + 1] == s[..k + 1];
  }

  lemma CumSumFirst(s: seq<real>)
    requires |s| > 0
    ensures CumSum(s, 0) == s[0]
  {
    var t := s[..1];
    assert t[..0] == [];
    assert Sum(t) == Sum(t[..0]) + t[0];
  }

  lemma CumSumLast(s: seq<real>)
    requires |s| > 0
    ensures CumSum(s, |s| - 1) == Sum(s)
  {
    assert s[..|s|] == s;
  }

  /** Sum of non-negative entries bounds every single entry. */
  lemma {:induction false} EntryAtMostSum(s: seq<real>, k: nat)
    requires forall i :: 0 <= i < |s| ==> s[i] >= 0.0
    requires k < |s|
    ensures 0.0 <= s[k] <= Sum(s)
    decreases |s|
  {
    var n := |s|;
    SumNonNegative(s[..n - 1]);
    if k < n - 1 {
      EntryAtMostSum(s[..n - 1], k);
    }
  }

  lemma {:induction false} SumNonNegative(s: seq<real>)
    requires forall i :: 0 <= i < |s| ==> s[i] >= 0.0
    ensures Sum(s) >= 0.0
    decreases |s|
  {
    if |s| > 0 {
      SumNonNegative(s[..|s| - 1]);
    }
  }

  lemma {:induction false} SumPositive(s: seq<real>)
    requires |s| > 0 && AllPositive(s)
    ensures Sum(s) > 0.0
    decreases |s|
  {
    var n := |s|;
    if n > 1 {
      SumPositive(s[..n - 1]);
    }
  }

  /** Dividing every entry by c divides the sum by c. */
  lemma {:induction false} SumScaled(s: seq<real>, c: real, t: seq<real>)
    requires c != 0.0
    requires |t| == |s| && forall k :: 0 <= k < |s| ==> t[k] == s[k] / c
    ensures Sum(t) == Sum(s) / c
    decreases |s|
  {
    if |s| > 0 {
      var n := |s|;
      SumScaled(s[..n - 1], c, t[..n - 1]);
      DivAdd(Sum(s[..n - 1]), s[n - 1], c);
    }
  }

  lemma DivAdd(a: real, b: real, c: real)
    requires c != 0.0
    ensures a / c + b / c == (a + b) / c
  {
  }

  /** Joins tokens with a separator: t0 sep t1 sep ... sep tn. */
  function Join(toks: seq<string>, sep: char): string
  {
    if |toks| == 0 then ""
    else if |toks| == 1 then toks[0]
    else toks[0] + [sep] + Join(toks[1..], sep)
  }

  /** Splits at every separator; the exact inverse of Join on non-empty token
      lists whose tokens do not contain the separator. */
  function Split(s: string, sep: char): (toks: seq<string>)
    ensures |toks| >= 1
    decreases |s|
  {
    if sep in s then
      var i := IndexOf(s, sep);
      [s[..i]] + Split(s[i + 1..], sep)
    else
      [s]
  }

  lemma {:induction false} SplitJoin(toks: seq<string>, sep: char)
    requires |toks| >= 1
    requires forall k :: 0 <= k < |toks| ==> sep !in toks[k]
    ensures Split(Join(toks, sep), sep) == toks
    decreases |toks|
  {
    if |toks| > 1 {
      var rest := Join(toks[1..], sep);
      assert Join(toks, sep) == toks[0] + [sep] + rest;
      SplitFirst(toks[0], sep, rest);
      SplitJoin(toks[1..], sep);
      assert toks == [toks[0]] + toks[1..];
    }
  }

  /** A separator after a separator-free token ends that token. */
  lemma SplitFirst(t: string, sep: char, rest: string)
    requires sep !in t
    ensures Split(t + [sep] + rest, sep) == [t] + Split(rest, sep)
  {
    var s := t + [sep] + rest;
    assert s[|t|] == sep;
    IndexOfAfter(s, t, sep);
    assert s[..|t|] == t;
    assert s[|t| + 1..] == rest;
  }

  lemma IndexOfAfter(s: string, t: string, sep: char)
    requires sep !in t && |t| < |s| && s[..|t|] == t && s[|t|] == sep
    ensures sep in s && IndexOf(s, sep) == |t|
  {
    forall k | 0 <= k < |t|
      ensures s[k] != sep
    {
      assert s[k] == t[k];
    }
  }

  lemma {:induction false} JoinSplit(s: string, sep: char)
    ensures Join(Split(s, sep), sep) == s
    decreases |s|
  {
    if sep in s {
      var i := IndexOf(s, sep);
      var rest := Split(s[i + 1..], sep);
      assert Split(s, sep) == [s[..i]] + rest;
      JoinSplit(s[i + 1..], sep);
      JoinCons(s[..i], rest, sep);
      assert s == s[..i] + [sep] + s[i + 1..];
    }
  }

  lemma JoinCons(t: string, rest: seq<string>, sep: char)
    requires |rest| >= 1
    ensures Join([t] + rest, sep) == t + [sep] + Join(rest, sep)
  {
    assert ([t] + rest)[1..] == rest;
  }

  lemma {:induction false} JoinFirst(toks: seq<string>, sep: char)
    requires |toks| >= 1
    ensures |Join(toks, sep)| >= |toks[0]|
    ensures Join(toks, sep)[..|toks[0]|] == toks[0]
  {
    if |toks| > 1 {
      assert Join(toks, sep) == toks[0] + ([sep] + Join(toks[1..], sep));
    }
  }
}

=== FILE: structure.dfy ===
/** Structure synthesis: creates the nodes with their outcome labels, takes
    the drawn elimination order, and gives each node at position i >= 1 a
    parent set drawn from the positions before i. The random draws are
    explicit inputs. */
module Structure {
  import opened Seqs
  import opened BayesNet
  import opened Results

  /** The generator's structural settings. */
  datatype Config = Config(nVariables: int, maxNParents: int, maxNValuesPerNode: int)

  /** The draws structure synthesis consumes, one field per random call:
      valueCounts[i]  the outcome count of node i, from nextInt(2, maxNValuesPerNode);
      order           the elimination order, from nextPermutation(n, n);
      parentCounts[i] the parent count at eo position i >= 1, from nextInt(0, min(i, maxNParents));
      parentPicks[i]  the eo positions of those parents, from nextPermutation(i, parentCounts[i]),
                      drawn only when parentCounts[i] > 0.
      Entry 0 of parentCounts and parentPicks is never read. */
  datatype StructureDraws = StructureDraws(
    valueCounts: seq<nat>,
    order: seq<nat>,
    parentCounts: seq<nat>,
    parentPicks: seq<seq<nat>>)

  function Min(a: int, b: int): int
  {
    if a <= b then a else b
  }

  /** Settings for which structure synthesis throws nothing: the node array
      needs n >= 0, nextPermutation(n, n) then needs n >= 1, nextInt(2, maxV)
      needs maxV >= 2, and nextInt(0, min(i, maxP)) is only reached, and
      then needs maxP >= 0, when there is a second node. */
  predicate ValidConfig(cfg: Config)
  {
    && cfg.nVariables >= 1
    && cfg.maxNValuesPerNode >= 2
    && (cfg.nVariables >= 2 ==> cfg.maxNParents >= 0)
  }

  /** Every draw lies in the range its random call documents. */
  predicate DrawsFit(cfg: Config, d: StructureDraws)
  {
    var n := cfg.nVariables;
    && n >= 0
    && PicksInRange(d, n)
    && (forall i :: 0 <= i < n ==> 2 <= d.valueCounts[i] <= cfg.maxNValuesPerNode)
    && (forall i :: 1 <= i < n ==> d.parentCounts[i] <= Min(i, cfg.maxNParents))
    && (forall i :: 1 <= i < n && d.parentCounts[i] > 0 ==> Distinct(d.parentPicks[i]))
  }

  /** Node i with its name and outcome labels, and no parents yet. */
  function InitialNodes(valueCounts: seq<nat>): (nodes: seq<Node>)
    ensures |nodes| == |valueCounts|
  {
    seq(|valueCounts|, i requires 0 <= i < |valueCounts| =>
      Node(NodeName(i), Labels(valueCounts[i]), []))
  }

  /** The parents chosen for the node at eo position i: the nodes at the drawn
      earlier positions, in draw order. */
  function DrawnParents(d: StructureDraws, i: nat): seq<nat>
    requires i < |d.parentPicks| && i < |d.parentCounts|
    requires d.parentCounts[i] > 0 ==>
      |d.parentPicks[i]| == d.parentCounts[i] && forall k :: 0 <= k < |d.parentPicks[i]| ==> d.parentPicks[i][k] < |d.order|
  {
    if d.parentCounts[i] > 0 then
      seq(d.parentCounts[i], k requires 0 <= k < d.parentCounts[i] => d.order[d.parentPicks[i][k]])
    else
      []
  }

  /** The shape of the draws that the parent-assignment loop indexes: one
      entry per node, a permutation, and picks at earlier positions. */
  predicate PicksInRange(d: StructureDraws, n: nat)
  {
    && |d.valueCounts| == n
    && IsPermutation(d.order, n)
    && |d.parentCounts| == n
    && |d.parentPicks| == n
    && (forall i :: 1 <= i < n && d.parentCounts[i] > 0 ==>
          && |d.parentPicks[i]| == d.parentCounts[i]
          && (forall k :: 0 <= k < |d.parentPicks[i]| ==> d.parentPicks[i][k] < i))
  }

  /** The parent-assignment loop from position i on: the node at position
      j >= i receives its drawn parents when it drew at least one, and is left
      alone otherwise; names and outcomes never change. */
  function AssignParents(nodes: seq<Node>, d: StructureDraws, i: nat): (r: seq<Node>)
    requires 1 <= i
    requires PicksInRange(d, |nodes|)
    ensures |r| == |nodes|
    ensures forall m :: 0 <= m < |r| ==> r[m].name == nodes[m].name && r[m].outcomes == nodes[m].outcomes
    ensures forall j :: i <= j < |nodes| && d.parentCounts[j] > 0 ==> r[d.order[j]].parents == DrawnParents(d, j)
    ensures forall j :: i <= j < |nodes| && d.parentCounts[j] == 0 ==> r[d.order[j]].parents == nodes[d.order[j]].parents
    ensures forall j :: 0 <= j < i && j < |nodes| ==> r[d.order[j]] == nodes[d.order[j]]
    decreases |nodes| - i
  {
    if i >= |nodes| then nodes
    else
      var child := nodes[d.order[i]];
      var nodes' := if d.parentCounts[i] > 0 then nodes[d.order[i] := child.(parents := DrawnParents(d, i))] else nodes;
      AssignParents(nodes', d, i + 1)
  }

  /** Builds the network from the draws, or reports a setting that makes
      the source throw. */
  function GenerateStructure(cfg: Config, d: StructureDraws): (r: Result<Network>)
    requires ValidConfig(cfg) ==> DrawsFit(cfg, d)
    ensures r.Err? <==> !ValidConfig(cfg)
    ensures r.Ok? ==> WellFormed(r.value)
    ensures r.Ok? ==> |r.value.nodes| == cfg.nVariables && r.value.eo == d.order
    ensures r.Ok? ==> forall m :: 0 <= m < |r.value.nodes| ==>
      |r.value.nodes[m].outcomes| == d.valueCounts[m] <= cfg.maxNValuesPerNode
    ensures r.Ok? ==> |r.value.nodes[r.value.eo[0]].parents| == 0
    ensures r.Ok? ==> forall i :: 1 <= i < |r.value.eo| ==>
      |r.value.nodes[r.value.eo[i]].parents| == d.parentCounts[i] <= Min(i, cfg.maxNParents)
    ensures r.Ok? ==> forall i, k :: 1 <= i < |r.value.eo| && 0 <= k < |r.value.nodes[r.value.eo[i]].parents| ==>
      r.value.nodes[r.value.eo[i]].parents[k] == r.value.eo[d.parentPicks[i][k]]
  {
    if !ValidConfig(cfg) then Err(InvalidConfiguration)
    else
      var nodes := AssignParents(InitialNodes(d.valueCounts), d, 1);
      StructureFacts(cfg, d, nodes);
      var net := Network(nodes, d.order);
      Ok(net)
  }

  /** Each node keeps its initial name and outcomes and holds exactly the
      parents drawn at its eo position (none at position 0). */
  predicate AsDrawn(d: StructureDraws, nodes: seq<Node>)
    requires PicksInRange(d, |nodes|)
  {
    && (forall m :: 0 <= m < |nodes| ==> nodes[m].name == NodeName(m))
    && (forall m :: 0 <= m < |nodes| ==> nodes[m].outcomes == Labels(d.valueCounts[m]))
    && (forall j :: 0 <= j < |nodes| ==>
          nodes[d.order[j]].parents == (if j >= 1 then DrawnParents(d, j) else []))
  }

  lemma AssignedAsDrawn(cfg: Config, d: StructureDraws, nodes: seq<Node>)
    requires ValidConfig(cfg) && DrawsFit(cfg, d)
    requires nodes == AssignParents(InitialNodes(d.valueCounts), d, 1)
    ensures |nodes| == cfg.nVariables
    ensures AsDrawn(d, nodes)
  {
    var init := InitialNodes(d.valueCounts);
    forall j | 0 <= j < |nodes|
      ensures nodes[d.order[j]].parents == (if j >= 1 then DrawnParents(d, j) else [])
    {
      if j >= 1 && d.parentCounts[j] == 0 {
        assert init[d.order[j]].parents == [];
      }
    }
  }

  lemma AsDrawnParentsPrecede(d: StructureDraws, nodes: seq<Node>)
    requires PicksInRange(d, |nodes|) && AsDrawn(d, nodes)
    ensures ParentsPrecede(nodes, d.order)
  {
    forall j, p | 0 <= j < |nodes| && p in nodes[d.order[j]].parents
      ensures exists k :: 0 <= k < j && d.order[k] == p
    {
      var ps := DrawnParents(d, j);
      var k :| 0 <= k < |ps| && ps[k] == p;
      assert d.order[d.parentPicks[j][k]] == p;
    }
  }

  lemma AsDrawnParentsDistinct(cfg: Config, d: StructureDraws, nodes: seq<Node>)
    requires ValidConfig(cfg) && DrawsFit(cfg, d)
    requires |nodes| == cfg.nVariables && AsDrawn(d, nodes)
    ensures forall m :: 0 <= m < |nodes| ==> Distinct(nodes[m].parents)
    ensures forall m, k :: 0 <= m < |nodes| && 0 <= k < |nodes[m].parents| ==> nodes[m].parents[k] < |nodes|
  {
    var n := |nodes|;
    forall m | 0 <= m < n
      ensures Distinct(nodes[m].parents)
      ensures forall k :: 0 <= k < |nodes[m].parents| ==> nodes[m].parents[k] < n
    {
      PermutationCovers(d.order, n, m);
      var j := IndexOf(d.order, m);
      assert nodes[m].parents == (if j >= 1 then DrawnParents(d, j) else []);
    }
  }

  lemma StructureFacts(cfg: Config, d: StructureDraws, nodes: seq<Node>)
    requires ValidConfig(cfg) && DrawsFit(cfg, d)
    requires nodes == AssignParents(InitialNodes(d.valueCounts), d, 1)
    ensures |nodes| == cfg.nVariables
    ensures WellFormed(Network(nodes, d.order))
    ensures forall m :: 0 <= m < |nodes| ==> |nodes[m].outcomes| == d.valueCounts[m] <= cfg.maxNValuesPerNode
    ensures |nodes[d.order[0]].parents| == 0
    ensures forall i :: 1 <= i < |d.order| ==> |nodes[d.order[i]].parents| == d.parentCounts[i] <= Min(i, cfg.maxNParents)
    ensures forall i, k :: 1 <= i < |d.order| && 0 <= k < |nodes[d.order[i]].parents| ==>
      nodes[d.order[i]].parents[k] == d.order[d.parentPicks[i][k]]
  {
    AssignedAsDrawn(cfg, d, nodes);
    AsDrawnParentsPrecede(d, nodes);
    AsDrawnParentsDistinct(cfg, d, nodes);
    AsDrawnCounts(cfg, d, nodes);
  }

  lemma AsDrawnCounts(cfg: Config, d: StructureDraws, nodes: seq<Node>)
    requires ValidConfig(cfg) && DrawsFit(cfg, d)
    requires |nodes| == cfg.nVariables && AsDrawn(d, nodes)
    ensures forall m :: 0 <= m < |nodes| ==> |nodes[m].outcomes| == d.valueCounts[m] <= cfg.maxNValuesPerNode
    ensures |nodes[d.order[0]].parents| == 0
    ensures forall i :: 1 <= i < |d.order| ==> |nodes[d.order[i]].parents| == d.parentCounts[i] <= Min(i, cfg.maxNParents)
    ensures forall i, k :: 1 <= i < |d.order| && 0 <= k < |nodes[d.order[i]].parents| ==>
      nodes[d.order[i]].parents[k] == d.order[d.parentPicks[i][k]]
  {
    forall i | 1 <= i < |d.order|
      ensures |nodes[d.order[i]].parents| == d.parentCounts[i]
    {
      assert nodes[d.order[i]].parents == DrawnParents(d, i);
    }
  }
}

=== FILE: summary.dfy ===
/** The order in which the structure summary lists the nodes. The summary
    walks the elimination order with a for-each loop but uses each element
    as a position in eo once more, so it lists node eo[eo[k]] k-th. */
module Summary {
  import opened Seqs
  import opened BayesNet

  /** The listing as written: every node once, but in the order eo composed
      with itself. */
  function ListingAsWritten(net: Network): (order: seq<nat>)
    requires WellFormed(net)
    ensures IsPermutation(order, |net.nodes|)
  {
    var eo := net.eo;
    var order := seq(|eo|, k requires 0 <= k < |eo| => eo[eo[k]]);
    forall a, b | 0 <= a < b < |order|
      ensures order[a] != order[b]
    {
      assert eo[a] != eo[b];
    }
    order
  }

  /** The listing in elimination order: every node once, each after all of
      its parents. */
  function Listing(net: Network): (order: seq<nat>)
    requires WellFormed(net)
    ensures IsPermutation(order, |net.nodes|)
    ensures ParentsPrecede(net.nodes, order)
  {
    net.eo
  }

  /** Three binary nodes, n3 with parent n2, elimination order [1, 2, 0]. */
  function ThreeNodes(): Network
  {
    Network([Node(NodeName(0), Labels(2), []),
             Node(NodeName(1), Labels(2), []),
             Node(NodeName(2), Labels(2), [1])],
            [1, 2, 0])
  }

  lemma ThreeNodesWellFormed()
    ensures WellFormed(ThreeNodes())
  {
    var net := ThreeNodes();
    assert IsPermutation(net.eo, 3);
    forall m | 0 <= m < 3
      ensures net.nodes[m].name == NodeName(m)
      ensures net.nodes[m].outcomes == Labels(2) && |Labels(2)| == 2
      ensures Distinct(net.nodes[m].parents)
    {
    }
    assert NodesWellFormed(net.nodes);
    forall i, p | 0 <= i < 3 && p in net.nodes[net.eo[i]].parents
      ensures exists k :: 0 <= k < i && net.eo[k] == p
    {
      assert i == 1 && p == 1 && net.eo[0] == 1;
    }
  }

  /** On that network the listing as written puts n3 first, before its
      parent n2, while the elimination-order listing keeps parents first. */
  lemma ListingAsWrittenMisorders()
    ensures WellFormed(ThreeNodes())
    ensures ListingAsWritten(ThreeNodes()) == [2, 0, 1]
    ensures !ParentsPrecede(ThreeNodes().nodes, ListingAsWritten(ThreeNodes()))
    ensures ParentsPrecede(ThreeNodes().nodes, Listing(ThreeNodes()))
  {
    ThreeNodesWellFormed();
    var net := ThreeNodes();
    var order := ListingAsWritten(net);
    assert order == [2, 0, 1];
    assert 1 in net.nodes[order[0]].parents;
  }
}
